=== FILE: README.md ===
# meteor-locker lock protocol, modelled in Dafny

meteor-locker gives Meteor server code named, expiring, mutually exclusive locks. The locks are
stored in a MongoDB collection with a unique index on `lockName` and a TTL index on
`expiryMarker`. A locker is built with a projection from the running method invocation to a
*locker id*: the logged-in user, the client connection, or a custom projection. This project
models the core of `packages/locker/locker.js`:

- the encoding of lock names;
- `getLockerId` and the invocation context;
- the lease clamp and the back-dated `expiryMarker`;
- the metadata sanitisation, including its in-place deletions;
- `acquireLock` as an upsert on `(lockName, lockerId)` and `releaseLock`;
- the filter-based bulk releases;
- the retry loop of `ifLockElse`.

The collection is a map from lock name to record, which is the unique index on `lockName`. Each
call is a pure function from the collection before the call to the collection after it, plus
the return value or the thrown error. Other things enter as parameters:

- the clock;
- the `_id` an insert receives;
- driver failures;
- `Math.exp`;
- the collection as the next trial finds it after a pause;
- the effect of a callback on the collection.

Modules, one per file:

| file | module | content |
|---|---|---|
| wrappers.dfy | Wrappers | `Option`, `Result` |
| errors.dfy | Errors | the thrown errors, the driver error and the duplicate-key code 11000 |
| lock_name.dfy | LockName | allowed characters, `isValidLockNameEntry`, `toLockName`, JS `join`/`split` |
| identity.dfy | Identity | invocation context, preset projections, `getLockerId` |
| lease.dfy | Lease | `expiryInSec` clamp, back-dated marker, the TTL test |
| metadata.dfy | Metadata | reserved keys, in-place deletion, key and value checks |
| store.dfy | Store | records, upsert under the unique index, filtered removal, TTL sweep, collection invariants |
| locker.dfy | Locker | `acquireLock`, `releaseLock`, `releaseOwnLock`, the bulk releases, `_releaseLockById`, `_releaseAllLocks` |
| retry.dfy | Retry | the back-off formula and the acquisition loop |
| if_lock_else.dfy | IfLockElse | `ifLockElse` as written, and as corrected |

On the bare `forceNoUnblock` at `locker.js:271`, the model is faithful to the code, not to the
option's evident purpose. No variable of that name is declared, so the test throws a
ReferenceError whenever `maxTrials > 1`. The surrounding `try` catches it, and the
not-acquired callback answers. `IfLockElse.IfLockElseAsWritten` models exactly that. The
corrected `IfLockElse.IfLockElse` reads `options.forceNoUnblock` instead, which has no effect
on the collection. See "## Findings".

Four consequences of the code that a reader might not expect:

- As written, no failed trial is ever retried. With `maxTrials` 1 there is no second trial, any
  `maxTrials > 1` throws at line 271 before the loop, and a count no comparison holds for
  skips the loop (`IfLockElse.AsWrittenNeverRetries`, `IfLockElse.IfLockElseAsWritten`).
- The loop of lines 278-295, as the corrected `IfLockElse.IfLockElse` reaches it, retries a
  failed trial whatever the error was, not only on a lock conflict. This includes a bad name
  and bad metadata (`Retry.RetryOnAnyError`). A missing locker id never reaches the loop,
  because `getLockerId` at line 257 throws first.
- An exception from the acquired callback skips `releaseLock`. The lock stays held until it is
  released or the TTL sweep removes it, and the reply says the lock was not acquired. The
  corrected version shows this for any trial count (`IfLockElse.ThrowingCallbackKeepsLock`).
  The code as written agrees with it when `maxTrials` is 1, the default.
- `getLockerId` (line 257) and the `maxTrials < 1` check (line 259) run before the `try`, so
  their errors escape `ifLockElse`.

## Model

| member | source | states |
|---|---|---|
| LockName.IsValidLockNameEntry | packages/locker/locker.js:133-142 | an entry passes exactly when every character is one of the 64 built from codes 48..57, 65..90, 97..122 plus `_` and `-`; the empty entry passes |
| LockName.InAlphabetIff | packages/locker/locker.js:133 | the character table built from code ranges is exactly the class [A-Za-z0-9_-] |
| LockName.ValidEntryIsWordChars | packages/locker/locker.js:135-142 | an entry passes exactly when all its characters are in [A-Za-z0-9_-] |
| LockName.SeparatorNotInAlphabet | packages/locker/locker.js:133 | ':' is not an allowed character |
| LockName.ToLockName | packages/locker/locker.js:144-167 | a string name succeeds iff non-empty and all characters allowed, and is kept unchanged; an array succeeds iff every component passes; the errors are 'invalid-lock-name' for strings and other values and 'invalid-lock-name-component' for arrays; any other value is 'invalid-lock-name'; every encoded name uses only allowed characters and ':' |
| LockName.ComponentsRoundTrip | packages/locker/locker.js:156-163 | splitting the encoding of a non-empty component array on ':' gives back the array |
| LockName.ComponentsInjective | packages/locker/locker.js:156-163 | two non-empty arrays with the same encoding are equal, so distinct component arrays name distinct locks |
| LockName.SeveralComponentsNeverAnAtom | packages/locker/locker.js:144-163 | an array of two or more components never names the same lock as a valid string |
| LockName.SingleComponentIsAtom | packages/locker/locker.js:144-163 | a one-component array names the same lock as the string itself |
| LockName.EmptyArrayNames | packages/locker/locker.js:146-148 | `[]` and `[""]` both encode to "", which the string form rejects |
| LockName.SplitJoin | packages/locker/locker.js:163 | splitting a join of separator-free parts returns the parts |
| Identity.UserIdOf | packages/locker/locker.js:20-22 | the user-id projection yields a string exactly when someone is logged in, and that string is the user id |
| Identity.ConnectionIdOf | packages/locker/locker.js:23-25 | the connection-id projection yields a string exactly when there is a connection, and it is the connection id |
| Identity.GetContext | packages/locker/locker.js:93-103 | succeeds exactly inside an invocation, returning it; otherwise 'invalid-calling-context' |
| Identity.GetUserIdAndConnectionId | packages/locker/locker.js:106-112 | fails exactly as `getContext` does, otherwise returns the invocation's user id and connection id unchanged |
| Identity.GetLockerId | packages/locker/locker.js:114-126 | outside an invocation 'invalid-calling-context'; otherwise succeeds iff the projection is a non-empty string, which is the id; every other projection value is 'invalid-locker-id' |
| Identity.UserIdLockerId | packages/locker/locker.js:20-22 | with the user-id projection the locker id exists iff a non-empty user id does, and equals it |
| Identity.ConnectionIdLockerId | packages/locker/locker.js:23-25 | with the connection-id projection the locker id exists iff a non-empty connection id does, and equals it |
| Lease.EffectiveExpiry | packages/locker/locker.js:193-195 | the expiry used never exceeds the default; a number at most the default is kept; larger, non-finite and non-numeric arguments become the default |
| Lease.ExpiryMarker | packages/locker/locker.js:196 | the fixed window measured from the marker ends exactly `expiryInSec` after now; the marker is never in the future |
| Lease.MarkerExpiresAfterLease | packages/locker/locker.js:75-79 | under the TTL index, a marker set at time now is swept at t iff t is more than the effective expiry after now |
| Lease.LeaseNeverExceedsWindow | packages/locker/locker.js:193-196 | whatever the argument, the record expires once the default window has passed |
| Metadata.StripReserved | packages/locker/locker.js:184-207 | the object keeps exactly its properties whose keys are not among the six reserved ones |
| Metadata.StripReservedConcat | packages/locker/locker.js:202-207 | deletion works property by property: stripping two runs of properties strips each in turn, keeping their order |
| Metadata.EntryFault | packages/locker/locker.js:208-216 | a property is refused iff its key is not a valid entry, or its value is a string with a character outside the alphabet, or null or undefined; a bad key is 'invalid-argument'; under a valid key a null or undefined value is a TypeError, and a TypeError arises only from such a value |
| Metadata.FirstFault | packages/locker/locker.js:208-217 | the properties are checked in key order and the first refused one decides the error |
| Metadata.CheckProperties | packages/locker/locker.js:208-217 | the check passes iff every property is accepted, and then hands them on unchanged; a failure is the first refused property's error |
| Metadata.CheckedObject | packages/locker/locker.js:202-217 | after deletion the check passes iff every non-reserved property is accepted; a failure is the error of one such property |
| Metadata.AcceptedObject | packages/locker/locker.js:202-217 | an accepted object holds exactly the caller's non-reserved properties, each of them accepted |
| Metadata.Sanitize | packages/locker/locker.js:186-217 | a non-object is 'metadata-should-be-an-object', null is a TypeError, omitted is empty; an object with an own `hasOwnProperty` property is a TypeError and is left as it was; any other object succeeds iff every non-reserved property passes, and yields exactly those properties; a failure is the error of the first refused property in key order; otherwise the caller's object loses its reserved keys even when a property check fails |
| Metadata.HasOwnPropertyKeyThrows | packages/locker/locker.js:202-207 | an own `hasOwnProperty` property anywhere in the object, with any value, makes sanitisation a TypeError that deletes nothing |
| Metadata.SanitizeTwice | packages/locker/locker.js:202-217 | re-sanitising the object a call left behind gives the same verdict and leaves it unchanged |
| Metadata.StripNothingReserved | packages/locker/locker.js:202-207 | deletion leaves an object without reserved keys as it is |
| Store.Upsert | packages/locker/locker.js:225-237 | with no fault, fails with duplicate key 11000 iff another locker id holds the name; otherwise the name is held by the caller, every updated field is set, fields not updated and the `_id` survive on an update and no other field is added, a new record gets the fresh `_id`, and no other record changes |
| Store.RemoveWhere | packages/locker/locker.js:178-181 | removal deletes exactly the matching records, keeps the others unchanged, and reports zero iff none matched |
| Store.Sweep | packages/locker/locker.js:75-79 | the TTL monitor removes exactly the records whose marker is older than the window |
| Store.RemovePreservesWellFormed | packages/locker/locker.js:80-84 | removing records keeps non-empty holders, unset identity fields and distinct `_id`s |
| Store.UpsertPreservesWellFormed | packages/locker/locker.js:219-230 | an upsert with a fresh `_id` and a non-empty holder keeps those invariants |
| Locker.UserIdLocker | packages/locker/locker.js:20-22 | the user-id locker projects every invocation to its user id |
| Locker.ConnectionIdLocker | packages/locker/locker.js:23-25 | the connection-id locker projects every invocation to its connection id |
| Locker.MetaFields | packages/locker/locker.js:219-221 | the `$set` fields from metadata are exactly the metadata keys |
| Locker.MetaFieldsValues | packages/locker/locker.js:219-221 | each metadata key is set to the value of its last occurrence |
| Locker.Computed | packages/locker/locker.js:219-221 | the locker's own fields are exactly `expiryMarker`, `userId` and `connectionId`, with the marker stored as a date |
| Locker.Updater | packages/locker/locker.js:219-221 | the `$set` document has the three computed keys and the metadata keys; every metadata key carries its value, and the marker survives unless metadata overrides it |
| Locker.ComputedFieldsWin | packages/locker/locker.js:219-221 | once reserved keys are deleted, the marker, user id and connection id survive the extension, every metadata key is set and no identity field is |
| Locker.MetadataWouldOverride | packages/locker/locker.js:219-221 | without the deletion, a metadata `userId` would replace the computed one |
| Locker.Acquire | packages/locker/locker.js:186-240 | errors come in order name, locker id, metadata; a failure leaves the collection unchanged; a duplicate key becomes 'failed-to-acquire-lock' and other driver errors pass unchanged; a valid request succeeds iff there is no fault and the name is free or already the caller's, and then the caller holds it and no other record changes; the caller's metadata object is left as sanitisation leaves it |
| Locker.AcquiredRecord | packages/locker/locker.js:196-230 | the acquired record carries the back-dated marker, the invocation's ids and every accepted metadata property with its value |
| Locker.LeaseEndsAfterExpiry | packages/locker/locker.js:193-196 | the acquired record is swept at t iff t is more than the effective expiry after acquisition |
| Locker.ReacquireRefreshes | packages/locker/locker.js:225-230 | re-acquiring one's own lock succeeds, keeps the `_id` and renews the marker |
| Locker.MutualExclusion | packages/locker/locker.js:225-237 | while one locker id holds a lock, another's acquisition fails without changing the collection, with 'failed-to-acquire-lock' when well-formed and fault-free |
| Locker.RaceHasOneWinner | packages/locker/locker.js:225-237 | of two locker ids racing for a free lock, the first wins and the second gets 'failed-to-acquire-lock' |
| Locker.AcquirePreservesWellFormed | packages/locker/locker.js:186-240 | acquisition with a fresh `_id` keeps the collection invariants |
| Locker.Release | packages/locker/locker.js:174-182 | errors come in order name, locker id, driver; on success it returns true iff the caller held the name, and removes exactly that record |
| Locker.ReleaseThenOtherAcquires | packages/locker/locker.js:174-230 | after the holder releases, another locker id's fault-free acquisition succeeds |
| Locker.ReleaseLeavesOthersLock | packages/locker/locker.js:174-182 | releasing a lock someone else holds returns false and changes nothing |
| Locker.SweepFreesLockAfterLease | packages/locker/locker.js:193-237 | another locker id can take a swept lock iff the holder's lease has run out |
| Locker.ReleaseOwnLock | packages/locker/locker.js:319-326 | removes the named record iff its `userId` equals `Meteor.userId()`, with a null id matching a null or missing `userId`; returns whether it removed it |
| Locker.AnonymousReleaseOwnLock | packages/locker/locker.js:319-326 | with nobody logged in, `releaseOwnLock` removes a lock any anonymous invocation acquired |
| Locker.ReleaseAllOwnLocks | packages/locker/locker.js:328-333 | removes exactly the records whose `userId` matches, returns whether there were any, and leaves the rest unchanged |
| Locker.ReleaseAllCurrentConnectionLocks | packages/locker/locker.js:335-341 | outside an invocation 'invalid-calling-context'; otherwise removes exactly the records of the current connection, whoever holds them, and returns whether there were any |
| Locker.ReleaseAllOwnCurrentConnectionLocks | packages/locker/locker.js:343-346 | outside an invocation 'invalid-calling-context'; otherwise removes exactly the records matching both the user id and the connection id, and returns whether there were any |
| Locker.ConnectionReleaseCoversAcquired | packages/locker/locker.js:335-341 | a lock an invocation acquired is removed by its connection's bulk release |
| Locker.ReleaseLockById | packages/locker/locker.js:353-358 | removes exactly the records with the given `_id` and returns whether the `_id` was in use |
| Locker.ReleaseLockByIdRemovesOne | packages/locker/locker.js:353-358 | in a well-formed collection that is exactly one record |
| Locker.OwnReleasesCoverAcquired | packages/locker/locker.js:328-346 | a lock an invocation acquired is removed, with a true reply, by both its user's bulk release and its user-and-connection bulk release |
| Locker.ReleaseAllLocks | packages/locker/locker.js:360-363 | empties the collection and returns the number of records it held |
| Locker.ReleaseAllLocksFreesEverything | packages/locker/locker.js:360-363 | after the administrative release, any valid fault-free acquisition succeeds |
| Retry.RetryDelay | packages/locker/locker.js:285-286 | the pause after the first failed trial is the base interval times `Math.exp(0)`, rounded down |
| Retry.ClampExponent | packages/locker/locker.js:285 | the exponent is clamped into [0, 700], identity inside |
| Retry.DelayReadsExpOnlyOnClampedRange | packages/locker/locker.js:285-286 | the pause depends on `Math.exp` only over [0, 700] |
| Retry.LinearSchedule | packages/locker/locker.js:285-286 | with no exponent multiplier, the pause after trial n is floor(interval + (n - 1) * increment) |
| Retry.RetryFrom | packages/locker/locker.js:278-295 | the loop makes between 1 and `maxTrials` trials, pauses after every failed trial but the last with the back-off formula, gives up only after the last trial, and on success the caller holds the lock |
| Retry.RetryLoop | packages/locker/locker.js:263-295 | the imperative loop counting `mostRecentTrial` computes the same run as the recursive definition |
| Retry.RetryStops | packages/locker/locker.js:279-293 | a successful trial ends the loop with the store it left and no pause added; a failed last trial ends it on the unchanged collection with that trial's error |
| Retry.RetryStep | packages/locker/locker.js:283-289 | a failed trial that is not the last adds the back-off pause for that trial and hands over to the next trial on the collection as it is after the pause |
| Retry.RetryAgainstHeldLock | packages/locker/locker.js:278-295 | against a lock another locker id keeps, all `maxTrials` trials fail, with `maxTrials - 1` pauses |
| Retry.RetryOnAnyError | packages/locker/locker.js:278-295 | a request that cannot succeed is still retried until the trials run out |
| Retry.FirstTrialTakesFreeLock | packages/locker/locker.js:278-282 | a free lock and a valid, fault-free request are taken on the first trial without a pause |
| IfLockElse.NotAcquired | packages/locker/locker.js:304-311 | the catch block returns the not-acquired callback's value with `lockAcquired` false, or lets its exception escape |
| IfLockElse.LockHeld | packages/locker/locker.js:296-303 | a reply with `lockAcquired` true carries the acquired callback's value and the caller no longer holds the lock; conversely a returning callback and a successful release give `{lockAcquired: true, outcome}`, and a failed release goes to the catch block; a throwing callback goes to the catch block without releasing |
| IfLockElse.IfLockElseAsWritten | packages/locker/locker.js:242-311 | locker-id errors escape before the `try`; a numeric `maxTrials` below 1 is 'invalid-argument' with nothing changed; a numeric `maxTrials` allows at most one trial |
| IfLockElse.ReleaseOwnFirst | packages/locker/locker.js:265-269 | without `releaseOwnLock` nothing changes; otherwise a bad name or a driver fault fails and changes nothing, and a fault-free call returns whether the current user's `userId` is on the named record and then removes it; no other record is removed |
| IfLockElse.IfLockElse | packages/locker/locker.js:242-311 | corrected: only locker-id errors, 'invalid-argument' for a bad trial count and the not-acquired callback's exception escape, the first two before anything changes; a failing own-lock release makes no trial, changes nothing and goes to the not-acquired callback; at most `maxTrials` trials, with the back-off pauses; `lockAcquired` true means a trial took the lock, the acquired callback's value is returned and the lock is released; `lockAcquired` false carries the not-acquired callback's value; the run follows the retry loop: a loop that gives up leads to the not-acquired callback, and a loop that takes the lock hands over to the callback and release step with the loop's trials, pauses and metadata, so a returning callback and a successful release give `lockAcquired` true with the callback's value |
| IfLockElse.OwnReleaseFailureNotAcquired | packages/locker/locker.js:264-311 | corrected: with `releaseOwnLock`, a bad name or a driver fault in the own-lock release gives the not-acquired reply, with no trial and the collection unchanged |
| IfLockElse.CallbackRunsUnderLock | packages/locker/locker.js:278-303 | corrected: if the reply says the lock was acquired, the loop did take it for the caller |
| IfLockElse.HeldLockIsNeverAcquired | packages/locker/locker.js:278-311 | corrected: against a lock another locker id keeps, `maxTrials` trials and back-off pauses are made and the not-acquired callback answers |
| IfLockElse.FreeLockIsTakenAndReleased | packages/locker/locker.js:278-303 | corrected: a free lock is taken on the first trial, the acquired callback answers, and afterwards another locker id can take the lock |
| IfLockElse.ThrowingCallbackKeepsLock | packages/locker/locker.js:296-311 | corrected: a throwing acquired callback leaves the lock held while the reply says it was not acquired; with `maxTrials` 1 the code as written gives the same run |
| IfLockElse.AsWrittenNeverRetries | packages/locker/locker.js:270-271 | as written, any `maxTrials > 1` makes no trial and the not-acquired callback answers |
| IfLockElse.AsWrittenRunsCallbackWithoutLock | packages/locker/locker.js:259-303 | as written, a `maxTrials` that no comparison holds for skips the loop and reports the lock acquired while another locker id holds it |
| IfLockElse.UncomparableTrialCountRefused | packages/locker/locker.js:259-261 | corrected: such a `maxTrials` is refused with 'invalid-argument' and nothing changes |
| IfLockElse.RetriesReachAcquisition | packages/locker/locker.js:270-282 | corrected: with `maxTrials > 1` a free lock is taken on the first trial |
| IfLockElse.OneTrialAgrees | packages/locker/locker.js:259-311 | with `maxTrials` 1 the as-written and corrected versions agree |
| IfLockElse.DefaultsAgree | packages/locker/locker.js:243-255 | the default options ask for one trial and no release of one's own lock, so with them the as-written and corrected versions agree |
| IfLockElse.LockFreedDuringPauseIsTaken | packages/locker/locker.js:278-303 | corrected: a lock another locker id holds at the first trial and frees during the pause is taken on the second trial after one back-off pause, the acquired callback answers and the lock is released |

## Left out

- Collection creation and `_ensureIndex` (lines 74-84) are not modelled as calls. Their effect is built into the model: the collection is a map keyed by lock name, and `Store.Sweep` is the TTL monitor.
- Debug logging, `DEBUG_MODE`, `lockerContext` and the `PackageUtilities` property wrappers do not affect locking.
- Publications (`makePublication` and later in `locker.js`) are outside the lock protocol.
- `example/example.js` and the package manifest are outside the lock protocol.
- `context.unblock()` and Fibers concern scheduling and are left out. In `IfLockElse.IfLockElse`, unblocking has no effect on the collection.
- `Meteor._sleepForMs` is not executed. Each pause is recorded in a sequence, and concurrent activity during it enters as `Trials.afterSleep`.
- `Math.exp` is a parameter.
- Retry.RetryDelay: the floating-point arithmetic is computed on exact reals, with no rounding and no `Infinity` or `NaN`.
- Lease.EffectiveExpiry: expiries are whole seconds, so fractional seconds and the `Date` range limit are not modelled.
- IfLockElse.IfLockElseAsWritten: a fractional `maxTrials` is not modelled. Trial counts are integers or values no comparison holds for.
- Metadata.Sanitize: a function stored under the key `hasOwnProperty` would be called by the deletion loop; values are never callable in the model, so such a property always gives a TypeError.
- Metadata.EntryFault: array and other values that have a `length` property are not modelled. Non-string values are treated as lacking `length`.
- LockName.ToLockName: array components that are not strings are not modelled.
- Strings are sequences of characters, not UTF-16 code units.
- Locker.Acquire: the return value is `true`, assuming the driver reports `numberAffected` as 1 for every upsert.
- The bulk removals model no driver faults. Only the calls inside `ifLockElse` take a fault parameter.
- `Meteor.userId()` in `releaseOwnLock` and `releaseAllOwnLocks` is a parameter. Inside `ifLockElse` it is the invocation's user id.
- A custom locker-id projection that throws is not modelled. Projections are total functions.
- A custom locker-id projection sees only the invocation's user id and connection id. Other parts of the invocation are not modelled.
- Callbacks change the collection only through `Env.duringCallback`, applied once between the acquisition and the release.
- The `context` option is folded into the callbacks: evaluating it is part of what the callback returns or throws.

## Findings

| source | as written | input that shows it | evidently intended | confidence | as-written member | corrected member |
|---|---|---|---|---|---|---|
| packages/locker/locker.js:271 | `if (forceNoUnblock)` reads a variable that is never declared, so it throws a ReferenceError whenever `maxTrials > 1`; the `try` at 264 catches it and no trial is ever made | `ifLockElse("a", {maxTrials: 3})` on a free lock: the not-acquired callback answers and the lock is not taken | `if (options.forceNoUnblock)`, then up to `maxTrials` trials | high; not executed | IfLockElse.AsWrittenNeverRetries | IfLockElse.RetriesReachAcquisition |
| packages/locker/locker.js:259, 278 | `options.maxTrials < 1` and `mostRecentTrial < options.maxTrials` are both false for NaN, undefined or a non-numeric string, so the loop is skipped and the acquired callback runs with `lockAcquired: true` | `ifLockElse("a", {maxTrials: undefined})` while another locker id holds "a": the acquired callback runs and the reply claims the lock | refuse any `maxTrials` that is not a number of at least 1 with 'invalid-argument' | high; not executed | IfLockElse.AsWrittenRunsCallbackWithoutLock | IfLockElse.UncomparableTrialCountRefused |

=== FILE: errors.dfy ===
/** The exceptions the locker raises or lets through. */
module Errors {

  /** An exception raised by the Mongo driver: its `name` and numeric `code`. */
  datatype StoreError = StoreError(name: string, code: int)

  /** The error the unique index on `lockName` raises when an upsert would insert a second record. */
  const DuplicateKey: StoreError := StoreError("MongoError", 11000)

  /** Every way a locker operation can end with an exception. */
  datatype Error =
    | InvalidCallingContext        // 'invalid-calling-context': no method invocation is running
    | InvalidLockerId              // 'invalid-locker-id'
    | InvalidLockName              // 'invalid-lock-name'
    | InvalidLockNameComponent     // 'invalid-lock-name-component'
    | MetadataShouldBeAnObject     // 'metadata-should-be-an-object'
    | InvalidArgument              // 'invalid-argument'
    | FailedToAcquireLock          // 'failed-to-acquire-lock'
    | TypeError                    // the runtime's TypeError: a property read on null or undefined
    | Store(cause: StoreError)     // a driver error passed on unchanged
    | Thrown(reason: string)       // an exception raised by a caller-supplied callback
}

=== FILE: identity.dfy ===
/** Who is calling: the invocation context and the projection from it to a locker id. */
module Identity {
  import opened Wrappers
  import opened Errors

  /** The parts of a method invocation the locker reads: `this.userId` (null when nobody is
      logged in) and `this.connection.id` (null when there is no client connection). */
  datatype Context = Context(userId: Option<string>, connectionId: Option<string>)

  /** A value a projection can return: a string, null, undefined, or any other value. */
  datatype JsValue = JsString(s: string) | JsNull | JsUndefined | JsOther

  /** The projection of `makeUserIdLocker`: `context => context && context.userId`. */
  function UserIdOf(context: Context): (v: JsValue)
    ensures v.JsString? <==> context.userId.Some?
    ensures v.JsString? ==> v.s == context.userId.value
  {
    match context.userId
    case Some(u) => JsString(u)
    case None => JsNull
  }

  /** The projection of `makeConnectionIdLocker`:
      `context => context && context.connection && context.connection.id`. */
  function ConnectionIdOf(context: Context): (v: JsValue)
    ensures v.JsString? <==> context.connectionId.Some?
    ensures v.JsString? ==> v.s == context.connectionId.value
  {
    match context.connectionId
    case Some(id) => JsString(id)
    case None => JsNull
  }

  /** `getContext`: the running invocation, or 'invalid-calling-context' outside one. */
  function GetContext(invocation: Option<Context>): (r: Result<Context, Error>)
    ensures r.Success? <==> invocation.Some?
    ensures r.Success? ==> r.value == invocation.value
    ensures r.Failure? ==> r.error == InvalidCallingContext
  {
    match invocation
    case Some(context) => Success(context)
    case None => Failure(InvalidCallingContext)
  }

  /** `getUserIdAndConnectionId`: both ids of the running invocation. */
  function GetUserIdAndConnectionId(invocation: Option<Context>): (r: Result<Context, Error>)
    ensures r == GetContext(invocation)
  {
    match GetContext(invocation)
    case Success(context) => Success(Context(context.userId, context.connectionId))
    case Failure(e) => Failure(e)
  }

  /** `getLockerId`: the projection of the running invocation, which must be a non-empty
      string. A non-string that is neither null nor undefined is a type error of the
      projection; null, undefined and "" are falsey ids. Both end in 'invalid-locker-id'. */
  function GetLockerId(project: Context -> JsValue, invocation: Option<Context>): (r: Result<string, Error>)
    ensures invocation.None? ==> r == Failure(InvalidCallingContext)
    ensures invocation.Some? ==>
      (r.Success? <==> project(invocation.value).JsString? && project(invocation.value).s != "")
    ensures r.Success? ==> r.value != "" && r.value == project(invocation.value).s
    ensures invocation.Some? && r.Failure? ==> r.error == InvalidLockerId
  {
    match GetContext(invocation)
    case Failure(e) => Failure(e)
    case Success(context) =>
      var id := project(context);
      if !id.JsNull? && !id.JsUndefined? && !id.JsString? then Failure(InvalidLockerId)
      else if id.JsString? && id.s != "" then Success(id.s)
      else Failure(InvalidLockerId)
  }

  /** With the user-id projection the locker id is the logged-in user, and a call with
      nobody logged in is refused. */
  lemma UserIdLockerId(context: Context)
    ensures GetLockerId(UserIdOf, Some(context)).Success? <==> context.userId.Some? && context.userId.value != ""
    ensures GetLockerId(UserIdOf, Some(context)).Success? ==> GetLockerId(UserIdOf, Some(context)).value == context.userId.value
  {
  }

  /** With the connection-id projection the locker id is the client connection, and a call
      with no connection is refused. */
  lemma ConnectionIdLockerId(context: Context)
    ensures GetLockerId(ConnectionIdOf, Some(context)).Success? <==> context.connectionId.Some? && context.connectionId.value != ""
    ensures GetLockerId(ConnectionIdOf, Some(context)).Success? ==> GetLockerId(ConnectionIdOf, Some(context)).value == context.connectionId.value
  {
  }
}

=== FILE: if_lock_else.dfy ===
/** `ifLockElse`: acquire with retries, run the acquired callback and release, or run the
    not-acquired callback. `IfLockElseAsWritten` follows the code line for line;
    `IfLockElse` reads the option the code evidently meant and validates the trial count. */
module IfLockElse {
  import opened Wrappers
  import opened Errors
  import opened LockName
  import opened Identity
  import opened Lease
  import opened Metadata
  import opened Store
  import opened Locker
  import opened Retry

  /** What calling a callback does, the evaluation of the `context` option included: it
      returns a value or throws. */
  datatype Callback = Returns(value: JsValue) | Throws(reason: string)

  /** The `maxTrials` option: a number, or a value every comparison with which is false
      (NaN, undefined, a non-numeric string). */
  datatype TrialCount = Count(n: int) | NotComparable

  /** The options after `_.extend` with the defaults. `forceNoUnblock` only decides whether
      `context.unblock()` is called, which has no effect on the collection, so no member reads
      it; it is kept to mirror the option object. */
  datatype Options = Options(
    metadata: MetaArg,
    expiryInSec: ExpiryArg,
    lockAcquiredCallback: Callback,
    lockNotAcquiredCallback: Callback,
    releaseOwnLock: bool,
    maxTrials: TrialCount,
    forceNoUnblock: bool,
    backoff: Backoff)

  /** The defaults: empty metadata, a null expiry, callbacks returning undefined, no own-lock
      release, one trial, and a one-second pause. */
  const Defaults: Options :=
    Options(MetaObject([]), NotANumber, Returns(JsUndefined), Returns(JsUndefined), false, Count(1), false, DefaultBackoff)

  /** The world around one call: the loop's world, what happens to the collection while the
      acquired callback runs, and driver failures of the own-lock release and the final release. */
  datatype Env = Env(trials: Trials, duringCallback: Collection -> Collection,
                     releaseOwnFault: Option<StoreError>, releaseFault: Option<StoreError>)

  /** `{lockAcquired, outcome}`. */
  datatype Reply = Reply(lockAcquired: bool, outcome: JsValue)

  /** The outcome of a call: the collection afterwards, the reply or the escaping exception,
      the trials made, the pauses taken, and the caller's metadata object. */
  datatype Run = Run(store: Collection, result: Result<Reply, Error>, trials: nat, sleeps: seq<int>, metadata: MetaArg)

  /** The catch block: the not-acquired callback's value, or its exception, escapes. */
  function NotAcquired(c: Collection, opts: Options, trials: nat, sleeps: seq<int>, metadata: MetaArg): (run: Run)
    ensures run.store == c && run.trials == trials && run.sleeps == sleeps && run.metadata == metadata
    ensures opts.lockNotAcquiredCallback.Returns? <==> run.result.Success?
    ensures run.result.Success? ==> run.result.value == Reply(false, opts.lockNotAcquiredCallback.value)
    ensures run.result.Failure? ==> run.result.error == Thrown(opts.lockNotAcquiredCallback.reason)
  {
    match opts.lockNotAcquiredCallback
    case Returns(v) => Run(c, Success(Reply(false, v)), trials, sleeps, metadata)
    case Throws(reason) => Run(c, Failure(Thrown(reason)), trials, sleeps, metadata)
  }

  /** After the lock is taken: the acquired callback runs, then `releaseLock`. A throwing
      callback or a failing release lands in the catch block, and a throwing callback skips
      the release. */
  function LockHeld(cfg: LockerConfig, c: Collection, name: NameArg, invocation: Option<Context>, opts: Options,
                    env: Env, trials: nat, sleeps: seq<int>, metadata: MetaArg): (run: Run)
    ensures run.trials == trials && run.sleeps == sleeps && run.metadata == metadata
    ensures run.result.Success? && run.result.value.lockAcquired ==>
      && opts.lockAcquiredCallback == Returns(run.result.value.outcome)
      && ToLockName(name).Success? && GetLockerId(cfg.project, invocation).Success?
      && !HeldBy(run.store, ToLockName(name).value, GetLockerId(cfg.project, invocation).value)
    ensures opts.lockAcquiredCallback.Throws? ==> run == NotAcquired(env.duringCallback(c), opts, trials, sleeps, metadata)
    ensures var release := Release(cfg, env.duringCallback(c), name, invocation, env.releaseFault);
      opts.lockAcquiredCallback.Returns? ==>
        && (release.result.Success? ==>
              run.result == Success(Reply(true, opts.lockAcquiredCallback.value)) && run.store == release.store)
        && (release.result.Failure? ==> run == NotAcquired(env.duringCallback(c), opts, trials, sleeps, metadata))
  {
    var c1 := env.duringCallback(c);
    match opts.lockAcquiredCallback
    case Throws(_) => NotAcquired(c1, opts, trials, sleeps, metadata)
    case Returns(v) =>
      var release := Release(cfg, c1, name, invocation, env.releaseFault);
      if release.result.Failure? then NotAcquired(c1, opts, trials, sleeps, metadata)
      else Run(release.store, Success(Reply(true, v)), trials, sleeps, metadata)
  }

  /** The optional `releaseOwnLock(name)` before the first trial, with `Meteor.userId()`
      taken from the running invocation. */
  function ReleaseOwnFirst(c: Collection, name: NameArg, context: Context, opts: Options, env: Env): (call: ReleaseCall)
    ensures !opts.releaseOwnLock ==> call.store == c && call.result.Success?
    ensures call.result.Failure? ==> call.store == c
    ensures forall k :: k in call.store ==> k in c && call.store[k] == c[k]
    ensures forall k :: k in c && k !in call.store ==>
      && opts.releaseOwnLock && ToLockName(name).Success? && k == ToLockName(name).value
      && FieldIs(c[k], "userId", OptionalField(context.userId))
    ensures opts.releaseOwnLock && (ToLockName(name).Failure? || env.releaseOwnFault.Some?) ==> call.result.Failure?
    ensures opts.releaseOwnLock && ToLockName(name).Success? && env.releaseOwnFault.None? ==>
      var k := ToLockName(name).value;
      && call.result == Success(k in c && FieldIs(c[k], "userId", OptionalField(context.userId)))
      && (call.result.value ==> k !in call.store)
  {
    if opts.releaseOwnLock then ReleaseOwnLock(c, name, context.userId, env.releaseOwnFault)
    else ReleaseCall(c, Success(false))
  }

  /** A trial count the guard is meant to let through: a number of at least one. */
  predicate ValidTrialCount(t: TrialCount) {
    t.Count? && t.n >= 1
  }

  /** `ifLockElse` as written. The locker id is resolved and the trial count checked before
      the `try`, so their errors escape. Inside it, the test of the undeclared
      `forceNoUnblock` throws a ReferenceError whenever `maxTrials > 1`, and a trial count
      every comparison with which is false skips the loop and runs the acquired callback. */
  function IfLockElseAsWritten(cfg: LockerConfig, c: Collection, name: NameArg, invocation: Option<Context>,
                               opts: Options, env: Env): (run: Run)
    ensures GetLockerId(cfg.project, invocation).Failure? ==>
      run == Run(c, Failure(GetLockerId(cfg.project, invocation).error), 0, [], opts.metadata)
    ensures GetLockerId(cfg.project, invocation).Success? && opts.maxTrials.Count? && opts.maxTrials.n < 1 ==>
      run == Run(c, Failure(InvalidArgument), 0, [], opts.metadata)
    ensures opts.maxTrials.Count? ==> run.trials <= 1
  {
    match GetLockerId(cfg.project, invocation)
    case Failure(e) => Run(c, Failure(e), 0, [], opts.metadata)
    case Success(_) =>
      if opts.maxTrials.Count? && opts.maxTrials.n < 1 then Run(c, Failure(InvalidArgument), 0, [], opts.metadata)
      else
        var own := ReleaseOwnFirst(c, name, invocation.value, opts, env);
        if own.result.Failure? then NotAcquired(c, opts, 0, [], opts.metadata)
        else
          match opts.maxTrials
          case NotComparable =>
            LockHeld(cfg, own.store, name, invocation, opts, env, 0, [], opts.metadata)
          case Count(n) =>
            if n > 1 then
              NotAcquired(own.store, opts, 0, [], opts.metadata)
            else
              var retry := RetryFrom(cfg, env.trials, Attempt(name, invocation, opts.expiryInSec), opts.backoff,
                                     n, 0, own.store, opts.metadata, []);
              if retry.failure.Some? then NotAcquired(retry.store, opts, retry.trials, retry.sleeps, retry.metadata)
              else LockHeld(cfg, retry.store, name, invocation, opts, env, retry.trials, retry.sleeps, retry.metadata)
  }

  /** `ifLockElse` with `options.forceNoUnblock` read as the option it names (unblocking has
      no effect on the collection) and a trial count that is not a number of at least one
      refused with 'invalid-argument'. */
  function IfLockElse(cfg: LockerConfig, c: Collection, name: NameArg, invocation: Option<Context>,
                      opts: Options, env: Env): (run: Run)
    ensures run.result.Failure? ==>
      || (GetLockerId(cfg.project, invocation).Failure? && run.result.error == GetLockerId(cfg.project, invocation).error)
      || (GetLockerId(cfg.project, invocation).Success? && !ValidTrialCount(opts.maxTrials) && run.result.error == InvalidArgument)
      || (opts.lockNotAcquiredCallback.Throws? && run.result.error == Thrown(opts.lockNotAcquiredCallback.reason))
    ensures GetLockerId(cfg.project, invocation).Failure? || !ValidTrialCount(opts.maxTrials) ==>
      run.result.Failure? && run.store == c && run.trials == 0
    ensures ValidTrialCount(opts.maxTrials) ==> run.trials <= opts.maxTrials.n
    ensures |run.sleeps| == (if run.trials == 0 then 0 else run.trials - 1)
    ensures Schedule(opts.backoff, env.trials.exp, run.sleeps)
    ensures run.result.Success? && run.result.value.lockAcquired ==>
      && run.trials >= 1
      && opts.lockAcquiredCallback == Returns(run.result.value.outcome)
      && ToLockName(name).Success? && GetLockerId(cfg.project, invocation).Success?
      && !HeldBy(run.store, ToLockName(name).value, GetLockerId(cfg.project, invocation).value)
    ensures run.result.Success? && !run.result.value.lockAcquired ==>
      opts.lockNotAcquiredCallback == Returns(run.result.value.outcome)
    ensures GetLockerId(cfg.project, invocation).Failure? ==>
      run == Run(c, Failure(GetLockerId(cfg.project, invocation).error), 0, [], opts.metadata)
    ensures GetLockerId(cfg.project, invocation).Success? && !ValidTrialCount(opts.maxTrials) ==>
      run == Run(c, Failure(InvalidArgument), 0, [], opts.metadata)
    ensures GetLockerId(cfg.project, invocation).Success? && ValidTrialCount(opts.maxTrials)
            && ReleaseOwnFirst(c, name, invocation.value, opts, env).result.Failure? ==>
      run == NotAcquired(c, opts, 0, [], opts.metadata)
    ensures GetLockerId(cfg.project, invocation).Success? && ValidTrialCount(opts.maxTrials)
            && ReleaseOwnFirst(c, name, invocation.value, opts, env).result.Success? ==>
      var retry := RetryFrom(cfg, env.trials, Attempt(name, invocation, opts.expiryInSec), opts.backoff,
                             opts.maxTrials.n, 0, ReleaseOwnFirst(c, name, invocation.value, opts, env).store, opts.metadata, []);
      && (retry.failure.Some? ==> run == NotAcquired(retry.store, opts, retry.trials, retry.sleeps, retry.metadata))
      && (retry.failure.None? ==> run == LockHeld(cfg, retry.store, name, invocation, opts, env, retry.trials, retry.sleeps, retry.metadata))
      && (retry.failure.None? && opts.lockAcquiredCallback.Returns?
          && Release(cfg, env.duringCallback(retry.store), name, invocation, env.releaseFault).result.Success? ==>
            && run.result == Success(Reply(true, opts.lockAcquiredCallback.value))
            && run.trials == retry.trials
            && run.store == Release(cfg, env.duringCallback(retry.store), name, invocation, env.releaseFault).store)
  {
    match GetLockerId(cfg.project, invocation)
    case Failure(e) => Run(c, Failure(e), 0, [], opts.metadata)
    case Success(_) =>
      if !ValidTrialCount(opts.maxTrials) then Run(c, Failure(InvalidArgument), 0, [], opts.metadata)
      else
        var own := ReleaseOwnFirst(c, name, invocation.value, opts, env);
        if own.result.Failure? then NotAcquired(c, opts, 0, [], opts.metadata)
        else
          var retry := RetryFrom(cfg, env.trials, Attempt(name, invocation, opts.expiryInSec), opts.backoff,
                                 opts.maxTrials.n, 0, own.store, opts.metadata, []);
          if retry.failure.Some? then NotAcquired(retry.store, opts, retry.trials, retry.sleeps, retry.metadata)
          else LockHeld(cfg, retry.store, name, invocation, opts, env, retry.trials, retry.sleeps, retry.metadata)
  }

  /** A failing own-lock release (a bad name or a driver fault) throws inside the `try`:
      no trial is made, the collection is unchanged and the not-acquired callback answers. */
  lemma OwnReleaseFailureNotAcquired(cfg: LockerConfig, c: Collection, name: NameArg, invocation: Option<Context>,
                                     opts: Options, env: Env, w: JsValue)
    requires GetLockerId(cfg.project, invocation).Success? && ValidTrialCount(opts.maxTrials)
    requires opts.releaseOwnLock && (ToLockName(name).Failure? || env.releaseOwnFault.Some?)
    requires opts.lockNotAcquiredCallback == Returns(w)
    ensures IfLockElse(cfg, c, name, invocation, opts, env) == Run(c, Success(Reply(false, w)), 0, [], opts.metadata)
  {
  }

  /** The acquired callback only ever runs under the lock: when the reply says the lock was
      acquired, the loop did take it for the caller. */
  lemma CallbackRunsUnderLock(cfg: LockerConfig, c: Collection, name: NameArg, invocation: Option<Context>,
                              opts: Options, env: Env)
    requires var run := IfLockElse(cfg, c, name, invocation, opts, env);
      run.result.Success? && run.result.value.lockAcquired
    ensures ValidTrialCount(opts.maxTrials) && GetLockerId(cfg.project, invocation).Success?
    ensures var own := ReleaseOwnFirst(c, name, invocation.value, opts, env);
      var retry := RetryFrom(cfg, env.trials, Attempt(name, invocation, opts.expiryInSec), opts.backoff,
                             opts.maxTrials.n, 0, own.store, opts.metadata, []);
      retry.failure.None? && HeldBy(retry.store, ToLockName(name).value, GetLockerId(cfg.project, invocation).value)
  {
  }

  /** Against a lock another locker id holds throughout, with `maxTrials = n`: n trials,
      n - 1 pauses following the back-off formula, and the not-acquired callback's value. */
  lemma HeldLockIsNeverAcquired(cfg: LockerConfig, c: Collection, name: NameArg, invocation: Option<Context>,
                                opts: Options, env: Env, holder: string, w: JsValue)
    requires ToLockName(name).Success? && GetLockerId(cfg.project, invocation).Success?
    requires GetLockerId(cfg.project, invocation).value != holder
    requires HeldBy(c, ToLockName(name).value, holder)
    requires forall n, s :: HeldBy(s, ToLockName(name).value, holder) ==>
               HeldBy(env.trials.afterSleep(n, s), ToLockName(name).value, holder)
    requires !opts.releaseOwnLock && ValidTrialCount(opts.maxTrials)
    requires opts.lockNotAcquiredCallback == Returns(w)
    ensures var run := IfLockElse(cfg, c, name, invocation, opts, env);
      && run.result == Success(Reply(false, w))
      && run.trials == opts.maxTrials.n
      && |run.sleeps| == opts.maxTrials.n - 1
      && (forall i :: 0 <= i < |run.sleeps| ==> run.sleeps[i] == RetryDelay(opts.backoff, env.trials.exp, i + 1))
      && HeldBy(run.store, ToLockName(name).value, holder)
  {
    RetryAgainstHeldLock(cfg, env.trials, Attempt(name, invocation, opts.expiryInSec), opts.backoff,
                         opts.maxTrials.n, 0, c, opts.metadata, [], holder);
  }

  /** A free lock, a well-formed request, no store faults and nothing else touching the
      collection during the callback: the lock is taken on the first trial, the acquired
      callback's value is returned, and the lock is free again afterwards, so another
      locker id can take it. */
  lemma FreeLockIsTakenAndReleased(cfg: LockerConfig, c: Collection, name: NameArg, invocation: Option<Context>,
                                   opts: Options, env: Env, v: JsValue,
                                   other: Option<Context>, metadata2: MetaArg, expiry2: ExpiryArg, env2: CallEnv)
    requires ValidRequest(cfg, name, invocation, opts.metadata)
    requires ToLockName(name).value !in c
    requires !opts.releaseOwnLock && ValidTrialCount(opts.maxTrials)
    requires env.trials.call(1).fault.None? && env.releaseFault.None?
    requires forall s :: env.duringCallback(s) == s
    requires opts.lockAcquiredCallback == Returns(v)
    requires ValidRequest(cfg, name, other, metadata2) && env2.fault.None?
    ensures var run := IfLockElse(cfg, c, name, invocation, opts, env);
      && run.result == Success(Reply(true, v))
      && run.trials == 1 && run.sleeps == []
      && ToLockName(name).value !in run.store
      && Acquire(cfg, run.store, name, other, metadata2, expiry2, env2).result == Success(true)
  {
    FirstTrialTakesFreeLock(cfg, env.trials, Attempt(name, invocation, opts.expiryInSec), opts.backoff,
                            opts.maxTrials.n, c, opts.metadata);
  }

  /** A lock another locker id holds at the first trial and that is freed during the pause
      after it is taken on the second trial: the acquired callback answers and the lock is
      released again. */
  lemma LockFreedDuringPauseIsTaken(cfg: LockerConfig, c: Collection, name: NameArg, invocation: Option<Context>,
                                    opts: Options, env: Env, holder: string, v: JsValue)
    requires ValidRequest(cfg, name, invocation, opts.metadata)
    requires GetLockerId(cfg.project, invocation).value != holder
    requires HeldBy(c, ToLockName(name).value, holder)
    requires ToLockName(name).value !in env.trials.afterSleep(1, c)
    requires !opts.releaseOwnLock && opts.maxTrials.Count? && opts.maxTrials.n >= 2
    requires env.trials.call(2).fault.None? && env.releaseFault.None?
    requires forall s :: env.duringCallback(s) == s
    requires opts.lockAcquiredCallback == Returns(v)
    ensures var run := IfLockElse(cfg, c, name, invocation, opts, env);
      && run.result == Success(Reply(true, v))
      && run.trials == 2
      && run.sleeps == [RetryDelay(opts.backoff, env.trials.exp, 1)]
      && ToLockName(name).value !in run.store
  {
    var a := Attempt(name, invocation, opts.expiryInSec);
    var first := Acquire(cfg, c, name, invocation, opts.metadata, opts.expiryInSec, env.trials.call(1));
    assert first.result.Failure?;
    SanitizeTwice(opts.metadata);
    assert ValidRequest(cfg, name, invocation, first.callerMetadata);
    RetryStep(cfg, env.trials, a, opts.backoff, opts.maxTrials.n, 0, c, opts.metadata, [], first);
    var second := Acquire(cfg, env.trials.afterSleep(1, c), name, invocation, first.callerMetadata, opts.expiryInSec,
                          env.trials.call(2));
    assert second.result.Success?;
  }

  /** A throwing acquired callback skips the release: the reply says the lock was not
      acquired, yet the caller still holds it. */
  lemma ThrowingCallbackKeepsLock(cfg: LockerConfig, c: Collection, name: NameArg, invocation: Option<Context>,
                                  opts: Options, env: Env, reason: string, w: JsValue)
    requires ValidRequest(cfg, name, invocation, opts.metadata)
    requires ToLockName(name).value !in c
    requires !opts.releaseOwnLock && ValidTrialCount(opts.maxTrials)
    requires env.trials.call(1).fault.None?
    requires forall s :: env.duringCallback(s) == s
    requires opts.lockAcquiredCallback == Throws(reason)
    requires opts.lockNotAcquiredCallback == Returns(w)
    ensures var run := IfLockElse(cfg, c, name, invocation, opts, env);
      && run.result == Success(Reply(false, w))
      && HeldBy(run.store, ToLockName(name).value, GetLockerId(cfg.project, invocation).value)
      && (opts.maxTrials == Count(1) ==> IfLockElseAsWritten(cfg, c, name, invocation, opts, env) == run)
  {
    FirstTrialTakesFreeLock(cfg, env.trials, Attempt(name, invocation, opts.expiryInSec), opts.backoff,
                            opts.maxTrials.n, c, opts.metadata);
  }

  /** As written, any `maxTrials > 1` never reaches an acquisition: the ReferenceError is
      caught and the not-acquired callback answers, even for a free lock. */
  lemma AsWrittenNeverRetries(cfg: LockerConfig, c: Collection, name: NameArg, invocation: Option<Context>,
                              opts: Options, env: Env, w: JsValue)
    requires GetLockerId(cfg.project, invocation).Success?
    requires !opts.releaseOwnLock
    requires opts.maxTrials.Count? && opts.maxTrials.n > 1
    requires opts.lockNotAcquiredCallback == Returns(w)
    ensures IfLockElseAsWritten(cfg, c, name, invocation, opts, env) == Run(c, Success(Reply(false, w)), 0, [], opts.metadata)
  {
  }

  /** As written, a `maxTrials` that compares false with everything skips the loop: the
      acquired callback runs and the reply says the lock was acquired while another locker
      id holds it. */
  lemma AsWrittenRunsCallbackWithoutLock(cfg: LockerConfig, c: Collection, name: NameArg, invocation: Option<Context>,
                                         opts: Options, env: Env, holder: string, v: JsValue)
    requires ToLockName(name).Success? && GetLockerId(cfg.project, invocation).Success?
    requires GetLockerId(cfg.project, invocation).value != holder
    requires HeldBy(c, ToLockName(name).value, holder)
    requires !opts.releaseOwnLock && opts.maxTrials == NotComparable
    requires forall s :: env.duringCallback(s) == s
    requires opts.lockAcquiredCallback == Returns(v) && env.releaseFault.None?
    ensures var run := IfLockElseAsWritten(cfg, c, name, invocation, opts, env);
      && run.result == Success(Reply(true, v))
      && run.trials == 0
      && HeldBy(run.store, ToLockName(name).value, holder)
  {
  }

  /** With the trial count checked, the reply never claims the lock without a trial, and a
      trial count that compares false with everything is refused. */
  lemma UncomparableTrialCountRefused(cfg: LockerConfig, c: Collection, name: NameArg, invocation: Option<Context>,
                                      opts: Options, env: Env)
    requires GetLockerId(cfg.project, invocation).Success?
    requires opts.maxTrials == NotComparable
    ensures IfLockElse(cfg, c, name, invocation, opts, env) == Run(c, Failure(InvalidArgument), 0, [], opts.metadata)
  {
  }

  /** With retries configured, a free lock is taken on the first trial: the corrected
      function does what the retry options promise. */
  lemma RetriesReachAcquisition(cfg: LockerConfig, c: Collection, name: NameArg, invocation: Option<Context>,
                                opts: Options, env: Env)
    requires ValidRequest(cfg, name, invocation, opts.metadata)
    requires ToLockName(name).value !in c
    requires !opts.releaseOwnLock && opts.maxTrials.Count? && opts.maxTrials.n > 1
    requires env.trials.call(1).fault.None?
    ensures IfLockElse(cfg, c, name, invocation, opts, env).trials == 1
  {
    FirstTrialTakesFreeLock(cfg, env.trials, Attempt(name, invocation, opts.expiryInSec), opts.backoff,
                            opts.maxTrials.n, c, opts.metadata);
  }

  /** With one trial both versions agree: the bad option read and the skipped loop only
      show with other trial counts. */
  lemma OneTrialAgrees(cfg: LockerConfig, c: Collection, name: NameArg, invocation: Option<Context>,
                       opts: Options, env: Env)
    requires opts.maxTrials == Count(1)
    ensures IfLockElseAsWritten(cfg, c, name, invocation, opts, env) == IfLockElse(cfg, c, name, invocation, opts, env)
  {
  }

  /** With the default options, `maxTrials` is 1, so the code as written behaves as intended. */
  lemma DefaultsAgree(cfg: LockerConfig, c: Collection, name: NameArg, invocation: Option<Context>, env: Env)
    ensures Defaults.maxTrials == Count(1) && !Defaults.releaseOwnLock
    ensures IfLockElseAsWritten(cfg, c, name, invocation, Defaults, env) == IfLockElse(cfg, c, name, invocation, Defaults, env)
  {
    OneTrialAgrees(cfg, c, name, invocation, Defaults, env);
  }
}

=== FILE: lease.dfy ===
/** Lease arithmetic: the per-call expiry is emulated under one fixed TTL window by
    back-dating the record's `expiryMarker`. */
module Lease {

  /** The `expiryInSec` argument: a finite number of seconds, a non-finite number, or a
      value that is not a number at all (null by default). */
  datatype ExpiryArg = Seconds(n: int) | NonFinite | NotANumber

  /** The expiry actually used: numbers above the default, non-finite numbers and
      non-numbers all become the default; there is no lower bound. */
  function EffectiveExpiry(arg: ExpiryArg, defaultExpiryInSec: int): (sec: int)
    ensures sec <= defaultExpiryInSec
    ensures arg.Seconds? && arg.n <= defaultExpiryInSec ==> sec == arg.n
    ensures !(arg.Seconds? && arg.n <= defaultExpiryInSec) ==> sec == defaultExpiryInSec
  {
    match arg
    case Seconds(n) => if n > defaultExpiryInSec then defaultExpiryInSec else n
    case NonFinite => defaultExpiryInSec
    case NotANumber => defaultExpiryInSec
  }

  /** The back-dated marker, in milliseconds: the fixed window measured from it ends
      exactly `expiryInSec` seconds after `nowMs`. */
  function ExpiryMarker(nowMs: int, defaultExpiryInSec: int, expiryInSec: int): (marker: int)
    ensures marker + defaultExpiryInSec * 1000 == nowMs + expiryInSec * 1000
    ensures expiryInSec <= defaultExpiryInSec ==> marker <= nowMs
  {
    nowMs - (defaultExpiryInSec - expiryInSec) * 1000
  }

  /** The TTL index removes a record once its marker is older than the window. */
  predicate MarkerExpired(marker: int, windowInSec: int, nowMs: int) {
    marker + windowInSec * 1000 < nowMs
  }

  /** A record marked at `nowMs` for `expiry` seconds is swept exactly once more than
      `expiry` seconds have passed. */
  lemma MarkerExpiresAfterLease(nowMs: int, defaultExpiryInSec: int, arg: ExpiryArg, t: int)
    ensures var expiry := EffectiveExpiry(arg, defaultExpiryInSec);
      (MarkerExpired(ExpiryMarker(nowMs, defaultExpiryInSec, expiry), defaultExpiryInSec, t)
       <==> t > nowMs + expiry * 1000)
  {
  }

  /** No lease outlasts the window: any argument expires at most `defaultExpiryInSec` seconds on. */
  lemma LeaseNeverExceedsWindow(nowMs: int, defaultExpiryInSec: int, arg: ExpiryArg, t: int)
    requires t > nowMs + defaultExpiryInSec * 1000
    ensures MarkerExpired(ExpiryMarker(nowMs, defaultExpiryInSec, EffectiveExpiry(arg, defaultExpiryInSec)), defaultExpiryInSec, t)
  {
  }
}

=== FILE: lock_name.dfy ===
/** Lock names: the character check on entries and the encoding of a name argument
    into the single string stored under the unique `lockName` index. */
module LockName {
  import opened Wrappers
  import opened Errors

  /** The characters with codes `lo`, `lo + 1`, ..., `lo + count - 1`, in that order. */
  function CharRange(lo: nat, count: nat): (r: string)
    requires lo + count <= 0xD800
    ensures |r| == count
    ensures forall i :: 0 <= i < count ==> r[i] as int == lo + i
  {
    seq(count, i requires 0 <= i < count => (lo + i) as char)
  }

  /** The allowed characters, built as the locker builds them: the codes 48..57, 65..90
      and 97..122, followed by '_' and '-'. */
  const Alphabet: string := CharRange(48, 10) + CharRange(65, 26) + CharRange(97, 26) + "_-"

  /** A character is allowed when its index in `Alphabet` is not -1. */
  predicate InAlphabet(c: char) {
    c in Alphabet
  }

  /** The character class [A-Za-z0-9_-], written independently of `Alphabet`. */
  predicate IsWordChar(c: char) {
    || ('0' <= c <= '9')
    || ('A' <= c <= 'Z')
    || ('a' <= c <= 'z')
    || c == '_'
    || c == '-'
  }

  /** `Alphabet` is exactly the class [A-Za-z0-9_-]. */
  lemma InAlphabetIff(c: char)
    ensures InAlphabet(c) <==> IsWordChar(c)
  {
    var digits, upper, lower := CharRange(48, 10), CharRange(65, 26), CharRange(97, 26);
    assert Alphabet == digits + upper + lower + "_-";
    if IsWordChar(c) {
      if '0' <= c <= '9' {
        assert Alphabet[c as int - 48] == c;
      } else if 'A' <= c <= 'Z' {
        assert Alphabet[10 + c as int - 65] == c;
      } else if 'a' <= c <= 'z' {
        assert Alphabet[36 + c as int - 97] == c;
      } else if c == '_' {
        assert Alphabet[62] == c;
      } else {
        assert Alphabet[63] == c;
      }
    } else {
      forall i | 0 <= i < |Alphabet|
        ensures Alphabet[i] != c
      {
        if i < 10 {
          assert Alphabet[i] == digits[i];
        } else if i < 36 {
          assert Alphabet[i] == upper[i - 10];
        } else if i < 62 {
          assert Alphabet[i] == lower[i - 36];
        }
      }
    }
  }

  /** The separator of array names is not an allowed character. */
  lemma SeparatorNotInAlphabet()
    ensures !InAlphabet(':')
  {
    InAlphabetIff(':');
  }

  /** `isValidLockNameEntry`: scans left to right and rejects at the first character that is
      not allowed. The empty string passes. */
  function IsValidLockNameEntry(entry: string): (ok: bool)
    ensures ok <==> forall i :: 0 <= i < |entry| ==> InAlphabet(entry[i])
  {
    |entry| == 0 || (InAlphabet(entry[0]) && IsValidLockNameEntry(entry[1..]))
  }

  /** An entry passes exactly when every character is in [A-Za-z0-9_-]. */
  lemma ValidEntryIsWordChars(entry: string)
    ensures IsValidLockNameEntry(entry) <==> forall i :: 0 <= i < |entry| ==> IsWordChar(entry[i])
  {
    forall i | 0 <= i < |entry| {
      InAlphabetIff(entry[i]);
    }
  }

  /** `Array.prototype.join(sep)` over strings: the empty array gives "". */
  function Join(parts: seq<string>, sep: char): string
  {
    if |parts| == 0 then ""
    else if |parts| == 1 then parts[0]
    else parts[0] + [sep] + Join(parts[1..], sep)
  }

  /** `String.prototype.split(sep)` for a one-character separator: "" gives [""]. */
  function Split(s: string, sep: char): (parts: seq<string>)
    ensures |parts| >= 1
  {
    if |s| == 0 then [""]
    else
      var rest := Split(s[1..], sep);
      if s[0] == sep then [""] + rest
      else [[s[0]] + rest[0]] + rest[1..]
  }

  lemma {:induction false} SplitWithoutSeparator(s: string, sep: char)
    requires sep !in s
    ensures Split(s, sep) == [s]
  {
    if |s| > 0 {
      SplitWithoutSeparator(s[1..], sep);
      assert [s[0]] + s[1..] == s;
    }
  }

  lemma {:induction false} SplitAtFirstSeparator(a: string, sep: char, b: string)
    requires sep !in a
    ensures Split(a + [sep] + b, sep) == [a] + Split(b, sep)
  {
    if |a| == 0 {
      assert a + [sep] + b == [sep] + b;
      assert ([sep] + b)[1..] == b;
    } else {
      SplitAtFirstSeparator(a[1..], sep, b);
      assert (a + [sep] + b)[1..] == a[1..] + [sep] + b;
      assert [a[0]] + a[1..] == a;
    }
  }

  /** Splitting a join of separator-free parts gives the parts back, as long as there is
      at least one part. */
  lemma {:induction false} SplitJoin(parts: seq<string>, sep: char)
    requires |parts| >= 1
    requires forall i :: 0 <= i < |parts| ==> sep !in parts[i]
    ensures Split(Join(parts, sep), sep) == parts
  {
    if |parts| == 1 {
      SplitWithoutSeparator(parts[0], sep);
    } else {
      SplitJoin(parts[1..], sep);
      SplitAtFirstSeparator(parts[0], sep, Join(parts[1..], sep));
      assert [parts[0]] + parts[1..] == parts;
    }
  }

  /** Every character of a join is the separator or a character of one of the parts. */
  lemma {:induction false} JoinCharacters(parts: seq<string>, sep: char, P: char -> bool)
    requires P(sep)
    requires forall j, i :: 0 <= j < |parts| && 0 <= i < |parts[j]| ==> P(parts[j][i])
    ensures forall i :: 0 <= i < |Join(parts, sep)| ==> P(Join(parts, sep)[i])
  {
    if |parts| > 1 {
      JoinCharacters(parts[1..], sep, P);
      var tail := Join(parts[1..], sep);
      var whole := Join(parts, sep);
      assert whole == parts[0] + [sep] + tail;
      forall i | 0 <= i < |whole|
        ensures P(whole[i])
      {
        if i < |parts[0]| {
          assert whole[i] == parts[0][i];
        } else if i > |parts[0]| {
          assert whole[i] == tail[i - |parts[0]| - 1];
        }
      }
    }
  }

  /** A join of two or more parts contains the separator. */
  lemma JoinOfSeveralHasSeparator(parts: seq<string>, sep: char)
    requires |parts| >= 2
    ensures sep in Join(parts, sep)
  {
    assert Join(parts, sep)[|parts[0]|] == sep;
  }

  /** The `name` argument: a string, an array of strings, or some other value. */
  datatype NameArg = Atom(s: string) | Components(parts: seq<string>) | OtherValue

  /** `toLockName`: a non-empty string of allowed characters is kept as is; an array whose
      every component passes the entry check (empty components pass) is joined with ':';
      anything else is rejected. */
  function ToLockName(name: NameArg): (r: Result<string, Error>)
    ensures r.Failure? ==> r.error == (if name.Components? then InvalidLockNameComponent else InvalidLockName)
    ensures name.OtherValue? ==> r == Failure(InvalidLockName)
    ensures r.Success? ==> forall i :: 0 <= i < |r.value| ==> InAlphabet(r.value[i]) || r.value[i] == ':'
    ensures name.Atom? ==> (r.Success? <==> name.s != "" && forall i :: 0 <= i < |name.s| ==> InAlphabet(name.s[i]))
    ensures name.Atom? && r.Success? ==> r.value == name.s
    ensures name.Components? ==>
      (r.Success? <==> forall j, i :: 0 <= j < |name.parts| && 0 <= i < |name.parts[j]| ==> InAlphabet(name.parts[j][i]))
  {
    match name
    case Atom(s) =>
      if s == "" then Failure(InvalidLockName)
      else if !IsValidLockNameEntry(s) then Failure(InvalidLockName)
      else Success(s)
    case Components(parts) =>
      if forall j :: 0 <= j < |parts| ==> IsValidLockNameEntry(parts[j]) then
        JoinCharacters(parts, ':', c => InAlphabet(c) || c == ':');
        Success(Join(parts, ':'))
      else
        Failure(InvalidLockNameComponent)
    case OtherValue => Failure(InvalidLockName)
  }

  /** An encoded array name splits back into its components, whenever there is at least one. */
  lemma ComponentsRoundTrip(parts: seq<string>)
    requires |parts| >= 1
    requires ToLockName(Components(parts)).Success?
    ensures Split(ToLockName(Components(parts)).value, ':') == parts
  {
    SeparatorNotInAlphabet();
    forall j | 0 <= j < |parts|
      ensures ':' !in parts[j]
    {
      assert IsValidLockNameEntry(parts[j]);
    }
    SplitJoin(parts, ':');
  }

  /** Two non-empty arrays that encode to the same lock name are the same array. */
  lemma ComponentsInjective(p: seq<string>, q: seq<string>)
    requires |p| >= 1 && |q| >= 1
    requires ToLockName(Components(p)).Success? && ToLockName(Components(q)).Success?
    requires ToLockName(Components(p)).value == ToLockName(Components(q)).value
    ensures p == q
  {
    ComponentsRoundTrip(p);
    ComponentsRoundTrip(q);
  }

  /** The encoding of two or more components is never the name of a valid string atom. */
  lemma SeveralComponentsNeverAnAtom(parts: seq<string>, s: string)
    requires |parts| >= 2
    requires ToLockName(Components(parts)).Success?
    requires ToLockName(Atom(s)).Success?
    ensures ToLockName(Components(parts)).value != ToLockName(Atom(s)).value
  {
    JoinOfSeveralHasSeparator(parts, ':');
    SeparatorNotInAlphabet();
  }

  /** A one-component array names the same lock as the string itself. */
  lemma SingleComponentIsAtom(s: string)
    requires s != ""
    ensures ToLockName(Components([s])).Success? <==> ToLockName(Atom(s)).Success?
    ensures ToLockName(Components([s])).Success? ==> ToLockName(Components([s])).value == s
  {
  }

  /** The empty array and the array holding one empty string both encode to "", a name the
      string form rejects. */
  lemma EmptyArrayNames()
    ensures ToLockName(Components([])) == Success("")
    ensures ToLockName(Components([""])) == Success("")
    ensures ToLockName(Atom("")) == Failure(InvalidLockName)
  {
  }
}

=== FILE: locker.dfy ===
/** The locker proper: `acquireLock`, `releaseLock` and the filter-based release tools,
    each a single step on the collection. */
module Locker {
  import opened Wrappers
  import opened Errors
  import opened LockName
  import opened Identity
  import opened Lease
  import opened Metadata
  import opened Store

  /** What `makeLocker` is built with: the default expiry, which is also the window of the
      TTL index, and the projection from an invocation to a locker id. */
  datatype LockerConfig = LockerConfig(defaultExpiryInSec: int, project: Context -> JsValue)

  /** `makeUserIdLocker`: locks are held by the logged-in user. */
  function UserIdLocker(defaultExpiryInSec: int): (cfg: LockerConfig)
    ensures cfg.defaultExpiryInSec == defaultExpiryInSec
    ensures forall context :: cfg.project(context) == UserIdOf(context)
  {
    LockerConfig(defaultExpiryInSec, UserIdOf)
  }

  /** `makeConnectionIdLocker`: locks are held by the client connection. */
  function ConnectionIdLocker(defaultExpiryInSec: int): (cfg: LockerConfig)
    ensures cfg.defaultExpiryInSec == defaultExpiryInSec
    ensures forall context :: cfg.project(context) == ConnectionIdOf(context)
  {
    LockerConfig(defaultExpiryInSec, ConnectionIdOf)
  }

  /** What the outside world supplies to one store call: the clock in milliseconds, the
      `_id` an insert receives, and the driver failure, if the call meets one. */
  datatype CallEnv = CallEnv(nowMs: int, freshId: string, fault: Option<StoreError>)

  /** A metadata value as stored. */
  function ToField(v: MetaValue): Field
  {
    match v
    case VString(s) => FString(s)
    case VNull => FNull
    case VUndefined => FNull
    case VOther => FOther
  }

  /** The metadata properties as `$set` fields; a later property overwrites an earlier one. */
  function MetaFields(entries: seq<Entry>): (m: map<string, Field>)
    ensures forall k :: k in m ==> exists i :: 0 <= i < |entries| && entries[i].0 == k
    ensures forall i :: 0 <= i < |entries| ==> entries[i].0 in m
  {
    if |entries| == 0 then map[]
    else
      var last := entries[|entries| - 1];
      var prefix := entries[..|entries| - 1];
      var m := MetaFields(prefix);
      assert forall i :: 0 <= i < |prefix| ==> prefix[i] == entries[i];
      m[last.0 := ToField(last.1)]
  }

  /** Every key holds the value of the last property with that key. */
  lemma {:induction false} MetaFieldsValues(entries: seq<Entry>)
    ensures forall i :: 0 <= i < |entries| && LastWithKey(entries, i) ==>
      MetaFields(entries)[entries[i].0] == ToField(entries[i].1)
  {
    if |entries| > 0 {
      var last := entries[|entries| - 1];
      var prefix := entries[..|entries| - 1];
      var m := MetaFields(prefix);
      MetaFieldsValues(prefix);
      assert MetaFields(entries) == m[last.0 := ToField(last.1)];
      forall i | 0 <= i < |prefix| && LastWithKey(entries, i)
        ensures m[last.0 := ToField(last.1)][entries[i].0] == ToField(entries[i].1)
      {
        assert prefix[i] == entries[i];
        assert entries[i].0 != last.0;
        assert LastWithKey(prefix, i);
      }
    }
  }

  /** The `$set` document: `_.extend({expiryMarker}, {userId, connectionId}, metadata)`,
      where a later source overwrites an earlier one. */
  function Updater(marker: int, ids: Context, entries: seq<Entry>): (u: map<string, Field>)
    ensures forall k :: k in u <==> k in Computed(marker, ids) || k in MetaFields(entries)
    ensures forall i :: 0 <= i < |entries| && LastWithKey(entries, i) ==>
      entries[i].0 in u && u[entries[i].0] == ToField(entries[i].1)
    ensures "expiryMarker" !in MetaFields(entries) ==> u["expiryMarker"] == FDate(marker)
  {
    MetaFieldsValues(entries);
    Computed(marker, ids) + MetaFields(entries)
  }

  /** The fields the locker computes itself: the marker and both ids. */
  function Computed(marker: int, ids: Context): (u: map<string, Field>)
    ensures u.Keys == {"expiryMarker", "userId", "connectionId"}
    ensures u["expiryMarker"] == FDate(marker)
  {
    map["expiryMarker" := FDate(marker), "userId" := OptionalField(ids.userId),
        "connectionId" := OptionalField(ids.connectionId)]
  }

  /** Once the reserved keys are gone, the computed marker and ids survive the extension,
      every metadata key is set, and no identity field is touched. */
  lemma ComputedFieldsWin(marker: int, ids: Context, entries: seq<Entry>)
    requires forall e :: e in entries ==> e.0 !in ReservedKeys
    ensures var u := Updater(marker, ids, entries);
      && u["expiryMarker"] == FDate(marker)
      && u["userId"] == OptionalField(ids.userId)
      && u["connectionId"] == OptionalField(ids.connectionId)
      && u.Keys !! IdentityFields
      && forall e :: e in entries ==> e.0 in u
  {
    var m := MetaFields(entries);
    forall k | k in m
      ensures k !in ReservedKeys
    {
      var i :| 0 <= i < |entries| && entries[i].0 == k;
      assert entries[i] in entries;
    }
    forall e | e in entries
      ensures e.0 in m
    {
      var i :| 0 <= i < |entries| && entries[i] == e;
    }
  }

  /** Without the deletion a metadata key would replace a computed field. */
  lemma MetadataWouldOverride(marker: int, ids: Context, forged: string)
    ensures Updater(marker, ids, [("userId", VString(forged))])["userId"] == FString(forged)
  {
    assert "userId" in MetaFields([("userId", VString(forged))]);
  }

  /** The name encodes, the invocation yields a locker id, and the metadata passes. */
  predicate ValidRequest(cfg: LockerConfig, name: NameArg, invocation: Option<Context>, metadata: MetaArg) {
    && ToLockName(name).Success?
    && GetLockerId(cfg.project, invocation).Success?
    && Sanitize(metadata).result.Success?
  }

  /** The outcome of `acquireLock`: the collection afterwards, the return value or
      exception, and the caller's metadata object as the call leaves it. */
  datatype AcquireCall = AcquireCall(store: Collection, result: Result<bool, Error>, callerMetadata: MetaArg)

  /** `acquireLock`: encode the name, resolve the locker id, sanitise the metadata, back-date
      the marker, then upsert on `(lockName, lockerId)`. A duplicate key becomes
      'failed-to-acquire-lock'; any other driver error is passed on unchanged. */
  function Acquire(cfg: LockerConfig, c: Collection, name: NameArg, invocation: Option<Context>,
                   metadata: MetaArg, expiry: ExpiryArg, env: CallEnv): (call: AcquireCall)
    ensures call.result.Failure? ==> call.store == c
    ensures call.result.Success? ==> call.result.value && ValidRequest(cfg, name, invocation, metadata)
    ensures ToLockName(name).Failure? ==> call.result == Failure(ToLockName(name).error)
    ensures ToLockName(name).Success? && GetLockerId(cfg.project, invocation).Failure? ==>
      call.result == Failure(GetLockerId(cfg.project, invocation).error)
    ensures ToLockName(name).Success? && GetLockerId(cfg.project, invocation).Success? ==>
      && call.callerMetadata == Sanitize(metadata).callerObject
      && (Sanitize(metadata).result.Failure? ==> call.result == Failure(Sanitize(metadata).result.error))
    ensures ToLockName(name).Failure? || GetLockerId(cfg.project, invocation).Failure? ==> call.callerMetadata == metadata
    ensures ValidRequest(cfg, name, invocation, metadata) && env.fault.Some? ==>
      call.result == Failure(if env.fault.value == DuplicateKey then FailedToAcquireLock else Store(env.fault.value))
    ensures ValidRequest(cfg, name, invocation, metadata) ==>
      var lockName := ToLockName(name).value;
      var lockerId := GetLockerId(cfg.project, invocation).value;
      && (call.result.Success? <==> env.fault.None? && (lockName !in c || c[lockName].lockerId == lockerId))
      && (env.fault.None? && call.result.Failure? ==> call.result.error == FailedToAcquireLock)
      && (call.result.Success? ==> HeldBy(call.store, lockName, lockerId) && OthersUnchanged(c, call.store, lockName))
  {
    match ToLockName(name)
    case Failure(e) => AcquireCall(c, Failure(e), metadata)
    case Success(lockName) =>
      match GetLockerId(cfg.project, invocation)
      case Failure(e) => AcquireCall(c, Failure(e), metadata)
      case Success(lockerId) =>
        var sanitized := Sanitize(metadata);
        var lease := EffectiveExpiry(expiry, cfg.defaultExpiryInSec);
        var marker := ExpiryMarker(env.nowMs, cfg.defaultExpiryInSec, lease);
        match sanitized.result
        case Failure(e) => AcquireCall(c, Failure(e), sanitized.callerObject)
        case Success(entries) =>
          var ids := GetUserIdAndConnectionId(invocation).value;
          ComputedFieldsWin(marker, ids, entries);
          match Upsert(c, lockName, lockerId, Updater(marker, ids, entries), env.freshId, env.fault)
          case Success(c') => AcquireCall(c', Success(true), sanitized.callerObject)
          case Failure(e) =>
            var error := if e == DuplicateKey then FailedToAcquireLock else Store(e);
            AcquireCall(c, Failure(error), sanitized.callerObject)
  }

  /** After a successful acquisition the record carries the back-dated marker, the
      invocation's ids and every accepted metadata property, whatever the metadata said. */
  lemma AcquiredRecord(cfg: LockerConfig, c: Collection, name: NameArg, invocation: Option<Context>,
                       metadata: MetaArg, expiry: ExpiryArg, env: CallEnv)
    requires Acquire(cfg, c, name, invocation, metadata, expiry, env).result.Success?
    ensures var store := Acquire(cfg, c, name, invocation, metadata, expiry, env).store;
      var fields := store[ToLockName(name).value].fields;
      var lease := EffectiveExpiry(expiry, cfg.defaultExpiryInSec);
      && fields["expiryMarker"] == FDate(ExpiryMarker(env.nowMs, cfg.defaultExpiryInSec, lease))
      && fields["userId"] == OptionalField(invocation.value.userId)
      && fields["connectionId"] == OptionalField(invocation.value.connectionId)
      && (forall e :: e in Sanitize(metadata).result.value ==> e.0 in fields)
      && var accepted := Sanitize(metadata).result.value;
         forall i :: 0 <= i < |accepted| && LastWithKey(accepted, i) ==> fields[accepted[i].0] == ToField(accepted[i].1)
  {
    var lease := EffectiveExpiry(expiry, cfg.defaultExpiryInSec);
    var marker := ExpiryMarker(env.nowMs, cfg.defaultExpiryInSec, lease);
    var entries := Sanitize(metadata).result.value;
    ComputedFieldsWin(marker, invocation.value, entries);
  }

  /** The lease: the record acquired at `env.nowMs` is swept at time `t` exactly when more
      than the effective expiry has passed. */
  lemma LeaseEndsAfterExpiry(cfg: LockerConfig, c: Collection, name: NameArg, invocation: Option<Context>,
                             metadata: MetaArg, expiry: ExpiryArg, env: CallEnv, t: int)
    requires Acquire(cfg, c, name, invocation, metadata, expiry, env).result.Success?
    ensures var store := Acquire(cfg, c, name, invocation, metadata, expiry, env).store;
      (Expired(store[ToLockName(name).value], cfg.defaultExpiryInSec, t)
       <==> t > env.nowMs + EffectiveExpiry(expiry, cfg.defaultExpiryInSec) * 1000)
  {
    AcquiredRecord(cfg, c, name, invocation, metadata, expiry, env);
    MarkerExpiresAfterLease(env.nowMs, cfg.defaultExpiryInSec, expiry, t);
  }

  /** Re-acquiring a lock one already holds succeeds, keeps the record's `_id` and
      refreshes it. */
  lemma ReacquireRefreshes(cfg: LockerConfig, c: Collection, name: NameArg, invocation: Option<Context>,
                           metadata: MetaArg, expiry: ExpiryArg, env: CallEnv,
                           metadata2: MetaArg, expiry2: ExpiryArg, env2: CallEnv)
    requires Acquire(cfg, c, name, invocation, metadata, expiry, env).result.Success?
    requires Sanitize(metadata2).result.Success? && env2.fault.None?
    ensures var first := Acquire(cfg, c, name, invocation, metadata, expiry, env);
      var second := Acquire(cfg, first.store, name, invocation, metadata2, expiry2, env2);
      var lockName := ToLockName(name).value;
      && second.result.Success?
      && second.store[lockName].id == first.store[lockName].id
      && second.store[lockName].fields["expiryMarker"]
         == FDate(ExpiryMarker(env2.nowMs, cfg.defaultExpiryInSec, EffectiveExpiry(expiry2, cfg.defaultExpiryInSec)))
  {
    var first := Acquire(cfg, c, name, invocation, metadata, expiry, env);
    AcquiredRecord(cfg, first.store, name, invocation, metadata2, expiry2, env2);
  }

  /** While one locker id holds a lock, every other locker id's acquisition fails and leaves
      the collection as it is; a well-formed, fault-free attempt fails with
      'failed-to-acquire-lock'. */
  lemma MutualExclusion(cfg: LockerConfig, c: Collection, name: NameArg, holder: Option<Context>,
                        metadata: MetaArg, expiry: ExpiryArg, env: CallEnv,
                        other: Option<Context>, metadata2: MetaArg, expiry2: ExpiryArg, env2: CallEnv)
    requires Acquire(cfg, c, name, holder, metadata, expiry, env).result.Success?
    requires GetLockerId(cfg.project, other).Success?
    requires GetLockerId(cfg.project, other).value != GetLockerId(cfg.project, holder).value
    ensures var first := Acquire(cfg, c, name, holder, metadata, expiry, env);
      var second := Acquire(cfg, first.store, name, other, metadata2, expiry2, env2);
      && second.result.Failure?
      && second.store == first.store
      && (Sanitize(metadata2).result.Success? && env2.fault.None? ==> second.result.error == FailedToAcquireLock)
  {
  }

  /** Two locker ids race for a free lock: whoever reaches the collection first wins and the
      other is told 'failed-to-acquire-lock'. */
  lemma RaceHasOneWinner(cfg: LockerConfig, c: Collection, name: NameArg,
                         first: Option<Context>, metadata1: MetaArg, env1: CallEnv,
                         second: Option<Context>, metadata2: MetaArg, env2: CallEnv, expiry: ExpiryArg)
    requires ValidRequest(cfg, name, first, metadata1) && ValidRequest(cfg, name, second, metadata2)
    requires GetLockerId(cfg.project, first).value != GetLockerId(cfg.project, second).value
    requires ToLockName(name).value !in c
    requires env1.fault.None? && env2.fault.None?
    ensures var winner := Acquire(cfg, c, name, first, metadata1, expiry, env1);
      && winner.result == Success(true)
      && Acquire(cfg, winner.store, name, second, metadata2, expiry, env2).result == Failure(FailedToAcquireLock)
  {
  }

  /** The outcome of a release: the collection afterwards and the return value or exception. */
  datatype ReleaseCall = ReleaseCall(store: Collection, result: Result<bool, Error>)

  /** `releaseLock`: removes the record matching both the encoded name and the caller's
      locker id, and tells whether there was one. */
  function Release(cfg: LockerConfig, c: Collection, name: NameArg, invocation: Option<Context>,
                   fault: Option<StoreError>): (call: ReleaseCall)
    ensures call.result.Failure? ==> call.store == c
    ensures ToLockName(name).Failure? ==> call.result == Failure(ToLockName(name).error)
    ensures ToLockName(name).Success? && GetLockerId(cfg.project, invocation).Failure? ==>
      call.result == Failure(GetLockerId(cfg.project, invocation).error)
    ensures ToLockName(name).Success? && GetLockerId(cfg.project, invocation).Success? && fault.Some? ==>
      call.result == Failure(Store(fault.value))
    ensures call.result.Success? <==>
      ToLockName(name).Success? && GetLockerId(cfg.project, invocation).Success? && fault.None?
    ensures call.result.Success? ==>
      var lockName := ToLockName(name).value;
      && (call.result.value <==> HeldBy(c, lockName, GetLockerId(cfg.project, invocation).value))
      && call.store == (if call.result.value then c - {lockName} else c)
  {
    match ToLockName(name)
    case Failure(e) => ReleaseCall(c, Failure(e))
    case Success(lockName) =>
      match GetLockerId(cfg.project, invocation)
      case Failure(e) => ReleaseCall(c, Failure(e))
      case Success(lockerId) =>
        if fault.Some? then ReleaseCall(c, Failure(Store(fault.value)))
        else
          var removal := RemoveWhere(c, (k, r: LockRecord) => k == lockName && r.lockerId == lockerId);
          var removed := removal.count > 0;
          assert removed ==> removal.remaining == c - {lockName};
          assert !removed ==> removal.remaining == c;
          ReleaseCall(removal.remaining, Success(removed))
  }

  /** After the holder releases, another locker id's well-formed, fault-free acquisition
      succeeds. */
  lemma ReleaseThenOtherAcquires(cfg: LockerConfig, c: Collection, name: NameArg, holder: Option<Context>,
                                 metadata: MetaArg, expiry: ExpiryArg, env: CallEnv,
                                 other: Option<Context>, metadata2: MetaArg, env2: CallEnv)
    requires Acquire(cfg, c, name, holder, metadata, expiry, env).result.Success?
    requires ValidRequest(cfg, name, other, metadata2) && env2.fault.None?
    ensures var held := Acquire(cfg, c, name, holder, metadata, expiry, env).store;
      var released := Release(cfg, held, name, holder, None);
      && released.result == Success(true)
      && Acquire(cfg, released.store, name, other, metadata2, expiry, env2).result == Success(true)
  {
  }

  /** Releasing a lock someone else holds changes nothing and returns false. */
  lemma ReleaseLeavesOthersLock(cfg: LockerConfig, c: Collection, name: NameArg, invocation: Option<Context>)
    requires ToLockName(name).Success? && GetLockerId(cfg.project, invocation).Success?
    requires ToLockName(name).value in c
    requires c[ToLockName(name).value].lockerId != GetLockerId(cfg.project, invocation).value
    ensures Release(cfg, c, name, invocation, None) == ReleaseCall(c, Success(false))
  {
  }

  /** Once the TTL sweep has run after the lease, another locker id can take the lock;
      before that, it cannot. */
  lemma SweepFreesLockAfterLease(cfg: LockerConfig, c: Collection, name: NameArg, holder: Option<Context>,
                                 metadata: MetaArg, expiry: ExpiryArg, env: CallEnv,
                                 other: Option<Context>, metadata2: MetaArg, env2: CallEnv, t: int)
    requires Acquire(cfg, c, name, holder, metadata, expiry, env).result.Success?
    requires ValidRequest(cfg, name, other, metadata2) && env2.fault.None?
    requires GetLockerId(cfg.project, other).value != GetLockerId(cfg.project, holder).value
    ensures var held := Acquire(cfg, c, name, holder, metadata, expiry, env).store;
      var swept := Sweep(held, cfg.defaultExpiryInSec, t);
      (Acquire(cfg, swept, name, other, metadata2, expiry, env2).result.Success?
       <==> t > env.nowMs + EffectiveExpiry(expiry, cfg.defaultExpiryInSec) * 1000)
  {
    LeaseEndsAfterExpiry(cfg, c, name, holder, metadata, expiry, env, t);
  }

  /** With a fresh `_id`, acquisition keeps the collection invariants. */
  lemma AcquirePreservesWellFormed(cfg: LockerConfig, c: Collection, name: NameArg, invocation: Option<Context>,
                                   metadata: MetaArg, expiry: ExpiryArg, env: CallEnv)
    requires WellFormed(c)
    requires env.freshId !in Ids(c)
    ensures WellFormed(Acquire(cfg, c, name, invocation, metadata, expiry, env).store)
  {
    var call := Acquire(cfg, c, name, invocation, metadata, expiry, env);
    if call.result.Success? {
      var lockName := ToLockName(name).value;
      var lockerId := GetLockerId(cfg.project, invocation).value;
      var entries := Sanitize(metadata).result.value;
      var marker := ExpiryMarker(env.nowMs, cfg.defaultExpiryInSec, EffectiveExpiry(expiry, cfg.defaultExpiryInSec));
      var ids := GetUserIdAndConnectionId(invocation).value;
      ComputedFieldsWin(marker, ids, entries);
      UpsertPreservesWellFormed(c, lockName, lockerId, Updater(marker, ids, entries), env.freshId, env.fault);
    }
  }

  /** `releaseOwnLock`: removes the record for the encoded name if its `userId` equals the
      given `Meteor.userId()`; a null user id matches a record whose `userId` is null. */
  function ReleaseOwnLock(c: Collection, name: NameArg, meteorUserId: Option<string>,
                          fault: Option<StoreError>): (call: ReleaseCall)
    ensures ToLockName(name).Failure? ==> call == ReleaseCall(c, Failure(ToLockName(name).error))
    ensures ToLockName(name).Success? && fault.Some? ==> call == ReleaseCall(c, Failure(Store(fault.value)))
    ensures ToLockName(name).Success? && fault.None? ==>
      var lockName := ToLockName(name).value;
      var owned := lockName in c && FieldIs(c[lockName], "userId", OptionalField(meteorUserId));
      && call.result == Success(owned)
      && call.store == (if owned then c - {lockName} else c)
  {
    match ToLockName(name)
    case Failure(e) => ReleaseCall(c, Failure(e))
    case Success(lockName) =>
      if fault.Some? then ReleaseCall(c, Failure(Store(fault.value)))
      else
        var user := OptionalField(meteorUserId);
        var removal := RemoveWhere(c, (k, r) => k == lockName && FieldIs(r, "userId", user));
        assert removal.count > 0 ==> removal.remaining == c - {lockName};
        assert removal.count == 0 ==> removal.remaining == c;
        ReleaseCall(removal.remaining, Success(removal.count > 0))
  }

  /** With nobody logged in, `releaseOwnLock` removes a lock acquired by any anonymous
      invocation, whichever connection holds it. */
  lemma AnonymousReleaseOwnLock(cfg: LockerConfig, c: Collection, name: NameArg, holder: Context,
                                metadata: MetaArg, expiry: ExpiryArg, env: CallEnv)
    requires holder.userId.None?
    requires Acquire(cfg, c, name, Some(holder), metadata, expiry, env).result.Success?
    ensures var held := Acquire(cfg, c, name, Some(holder), metadata, expiry, env).store;
      ReleaseOwnLock(held, name, None, None).result == Success(true)
  {
    AcquiredRecord(cfg, c, name, Some(holder), metadata, expiry, env);
  }

  /** `releaseAllOwnLocks`: removes every record whose `userId` equals the given
      `Meteor.userId()`, and tells whether any was removed. */
  function ReleaseAllOwnLocks(c: Collection, meteorUserId: Option<string>): (call: ReleaseCall)
    ensures call.result.Success?
    ensures forall k :: k in call.store <==> k in c && !FieldIs(c[k], "userId", OptionalField(meteorUserId))
    ensures forall k :: k in call.store ==> call.store[k] == c[k]
    ensures call.result.value <==> exists k :: k in c && FieldIs(c[k], "userId", OptionalField(meteorUserId))
  {
    var user := OptionalField(meteorUserId);
    var removal := RemoveWhere(c, (k, r) => FieldIs(r, "userId", user));
    ReleaseCall(removal.remaining, Success(removal.count > 0))
  }

  /** `releaseAllCurrentConnectionLocks`: removes every record whose `connectionId` is the
      invocation's connection (null matching null), whoever acquired it. */
  function ReleaseAllCurrentConnectionLocks(c: Collection, invocation: Option<Context>): (call: ReleaseCall)
    ensures invocation.None? ==> call == ReleaseCall(c, Failure(InvalidCallingContext))
    ensures invocation.Some? ==>
      var connection := OptionalField(invocation.value.connectionId);
      && call.result.Success?
      && (forall k :: k in call.store <==> k in c && !FieldIs(c[k], "connectionId", connection))
      && (forall k :: k in call.store ==> call.store[k] == c[k])
      && (call.result.value <==> exists k :: k in c && FieldIs(c[k], "connectionId", connection))
  {
    match GetUserIdAndConnectionId(invocation)
    case Failure(e) => ReleaseCall(c, Failure(e))
    case Success(info) =>
      var connection := OptionalField(info.connectionId);
      var removal := RemoveWhere(c, (k, r) => FieldIs(r, "connectionId", connection));
      ReleaseCall(removal.remaining, Success(removal.count > 0))
  }

  /** `releaseAllOwnCurrentConnectionLocks`: removes every record whose `userId` and
      `connectionId` both match the invocation's. */
  function ReleaseAllOwnCurrentConnectionLocks(c: Collection, invocation: Option<Context>): (call: ReleaseCall)
    ensures invocation.None? ==> call == ReleaseCall(c, Failure(InvalidCallingContext))
    ensures invocation.Some? ==>
      var user := OptionalField(invocation.value.userId);
      var connection := OptionalField(invocation.value.connectionId);
      && call.result.Success?
      && (forall k :: k in call.store <==>
            k in c && !(FieldIs(c[k], "userId", user) && FieldIs(c[k], "connectionId", connection)))
      && (forall k :: k in call.store ==> call.store[k] == c[k])
      && (call.result.value <==>
            exists k :: k in c && FieldIs(c[k], "userId", user) && FieldIs(c[k], "connectionId", connection))
  {
    match GetUserIdAndConnectionId(invocation)
    case Failure(e) => ReleaseCall(c, Failure(e))
    case Success(info) =>
      var user := OptionalField(info.userId);
      var connection := OptionalField(info.connectionId);
      var removal := RemoveWhere(c, (k, r) => FieldIs(r, "userId", user) && FieldIs(r, "connectionId", connection));
      ReleaseCall(removal.remaining, Success(removal.count > 0))
  }

  /** A lock acquired by an invocation is among those its connection's bulk release removes. */
  lemma ConnectionReleaseCoversAcquired(cfg: LockerConfig, c: Collection, name: NameArg, invocation: Option<Context>,
                                        metadata: MetaArg, expiry: ExpiryArg, env: CallEnv)
    requires Acquire(cfg, c, name, invocation, metadata, expiry, env).result.Success?
    ensures var held := Acquire(cfg, c, name, invocation, metadata, expiry, env).store;
      var after := ReleaseAllCurrentConnectionLocks(held, invocation);
      ToLockName(name).value !in after.store && after.result == Success(true)
  {
    AcquiredRecord(cfg, c, name, invocation, metadata, expiry, env);
  }

  /** A lock an invocation acquired is removed by its user's bulk release and by the bulk
      release of its user on its connection. */
  lemma OwnReleasesCoverAcquired(cfg: LockerConfig, c: Collection, name: NameArg, invocation: Option<Context>,
                                 metadata: MetaArg, expiry: ExpiryArg, env: CallEnv)
    requires Acquire(cfg, c, name, invocation, metadata, expiry, env).result.Success?
    ensures var held := Acquire(cfg, c, name, invocation, metadata, expiry, env).store;
      var own := ReleaseAllOwnLocks(held, invocation.value.userId);
      var ownHere := ReleaseAllOwnCurrentConnectionLocks(held, invocation);
      && ToLockName(name).value !in own.store && own.result == Success(true)
      && ToLockName(name).value !in ownHere.store && ownHere.result == Success(true)
  {
    AcquiredRecord(cfg, c, name, invocation, metadata, expiry, env);
  }

  /** `_releaseLockById`: removes the record with the given `_id`, bypassing name and holder. */
  function ReleaseLockById(c: Collection, id: string): (call: ReleaseCall)
    ensures call.result.Success?
    ensures forall k :: k in call.store <==> k in c && c[k].id != id
    ensures forall k :: k in call.store ==> call.store[k] == c[k]
    ensures call.result.value <==> id in Ids(c)
  {
    var removal := RemoveWhere(c, (k, r: LockRecord) => r.id == id);
    ReleaseCall(removal.remaining, Success(removal.count > 0))
  }

  /** In a well-formed collection, `_releaseLockById` removes at most one record. */
  lemma ReleaseLockByIdRemovesOne(c: Collection, id: string, k: string)
    requires WellFormed(c)
    requires k in c && c[k].id == id
    ensures ReleaseLockById(c, id).store == c - {k}
  {
    var after := ReleaseLockById(c, id).store;
    forall k' | k' in c && k' != k
      ensures k' in after
    {
      assert c[k'].id != c[k].id;
    }
    assert after == c - {k};
  }

  /** `_releaseAllLocks`: empties the collection and returns how many records it held. */
  function ReleaseAllLocks(c: Collection): (r: Removal)
    ensures r.remaining == map[]
    ensures r.count == |c.Keys|
  {
    var everything := (k: string, r: LockRecord) => true;
    var removal := RemoveWhere(c, everything);
    assert (set k | k in c && everything(k, c[k])) == c.Keys;
    assert removal.remaining == map[];
    removal
  }

  /** After `_releaseAllLocks` every well-formed, fault-free acquisition succeeds. */
  lemma ReleaseAllLocksFreesEverything(cfg: LockerConfig, c: Collection, name: NameArg, invocation: Option<Context>,
                                       metadata: MetaArg, expiry: ExpiryArg, env: CallEnv)
    requires ValidRequest(cfg, name, invocation, metadata) && env.fault.None?
    ensures Acquire(cfg, ReleaseAllLocks(c).remaining, name, invocation, metadata, expiry, env).result == Success(true)
  {
  }
}

=== FILE: metadata.dfy ===
/** Lock metadata: the caller's object, the reserved keys removed from it, and the
    character checks on what remains. */
module Metadata {
  import opened Wrappers
  import opened Errors
  import opened LockName

  /** A metadata value: a string, null, undefined, or a value without a `length` property
      (a number, a boolean, a plain object). */
  datatype MetaValue = VString(s: string) | VNull | VUndefined | VOther

  /** One own property of the metadata object, in `Object.keys` order. */
  type Entry = (string, MetaValue)

  /** The `metadata` argument: omitted, null, an object (its own properties in order), or a
      value whose `typeof` is not "object". */
  datatype MetaArg = MetaUndefined | MetaNull | MetaObject(entries: seq<Entry>) | MetaNotObject

  /** Field names of the stored record that metadata may not set. */
  const ReservedKeys: set<string> := {"_id", "lockName", "lockerId", "expiryMarker", "userId", "connectionId"}

  /** No later property has the same key as property `i`: its value is the one an
      assignment of the properties in order leaves behind. In an object, every property is
      the last with its key. */
  predicate LastWithKey(entries: seq<Entry>, i: int)
    requires 0 <= i < |entries|
  {
    forall j :: i < j < |entries| ==> entries[j].0 != entries[i].0
  }

  /** The object after the reserved properties have been deleted from it, order kept. */
  function StripReserved(entries: seq<Entry>): (kept: seq<Entry>)
    ensures forall e :: e in kept <==> e in entries && e.0 !in ReservedKeys
    ensures |kept| <= |entries|
  {
    if |entries| == 0 then []
    else (if entries[0].0 in ReservedKeys then [] else [entries[0]]) + StripReserved(entries[1..])
  }

  /** Deleting the reserved properties keeps the others in their order: it distributes over
      concatenation, so it acts on each property separately. */
  lemma {:induction false} StripReservedConcat(a: seq<Entry>, b: seq<Entry>)
    ensures StripReserved(a + b) == StripReserved(a) + StripReserved(b)
  {
    if |a| > 0 {
      var head := if a[0].0 in ReservedKeys then [] else [a[0]];
      var ab := a + b;
      assert ab[0] == a[0] && ab[1..] == a[1..] + b;
      calc {
        StripReserved(ab);
        head + StripReserved(a[1..] + b);
        { StripReservedConcat(a[1..], b); }
        head + (StripReserved(a[1..]) + StripReserved(b));
        (head + StripReserved(a[1..])) + StripReserved(b);
      }
    } else {
      assert a + b == b;
    }
  }

  /** Why a remaining property is refused, if it is: a key outside the alphabet, a string
      value outside the alphabet, or a null or undefined value whose `length` cannot be read.
      A value without `length` passes, as does the empty string. */
  function EntryFault(e: Entry): (fault: Option<Error>)
    ensures fault.None? <==>
      && (forall i :: 0 <= i < |e.0| ==> InAlphabet(e.0[i]))
      && (e.1.VString? ==> forall i :: 0 <= i < |e.1.s| ==> InAlphabet(e.1.s[i]))
      && !e.1.VNull? && !e.1.VUndefined?
    ensures !IsValidLockNameEntry(e.0) ==> fault == Some(InvalidArgument)
    ensures IsValidLockNameEntry(e.0) && (e.1.VNull? || e.1.VUndefined?) ==> fault == Some(TypeError)
    ensures fault.Some? ==> fault.value == InvalidArgument || (fault.value == TypeError && (e.1.VNull? || e.1.VUndefined?))
  {
    if !IsValidLockNameEntry(e.0) then Some(InvalidArgument)
    else match e.1
      case VString(s) => if IsValidLockNameEntry(s) then None else Some(InvalidArgument)
      case VNull => Some(TypeError)
      case VUndefined => Some(TypeError)
      case VOther => None
  }

  /** The index of the first refused property, or `|entries|` when none is. */
  function FirstFault(entries: seq<Entry>): (i: nat)
    ensures i <= |entries|
    ensures forall j :: 0 <= j < i ==> EntryFault(entries[j]).None?
    ensures i < |entries| ==> EntryFault(entries[i]).Some?
  {
    if |entries| == 0 then 0
    else if EntryFault(entries[0]).Some? then 0
    else 1 + FirstFault(entries[1..])
  }

  /** The key and value checks over the remaining properties, in key order: the first refused
      property decides the error. */
  function CheckProperties(kept: seq<Entry>): (r: Result<seq<Entry>, Error>)
    ensures r.Success? <==> forall e :: e in kept ==> EntryFault(e).None?
    ensures r.Success? ==> r.value == kept
    ensures r.Failure? ==> FirstFault(kept) < |kept| && r.error == EntryFault(kept[FirstFault(kept)]).value
  {
    var i := FirstFault(kept);
    if i < |kept| then
      assert kept[i] in kept;
      Failure(EntryFault(kept[i]).value)
    else
      assert forall e :: e in kept ==> exists j :: 0 <= j < |kept| && kept[j] == e;
      Success(kept)
  }

  /** The object has an own property named `hasOwnProperty`. It hides the inherited method,
      and no value of the model is callable, so the first `metadata.hasOwnProperty(key)` of
      the deletion loop throws a TypeError before anything is deleted. */
  predicate ShadowsHasOwnProperty(entries: seq<Entry>) {
    exists i :: 0 <= i < |entries| && entries[i].0 == "hasOwnProperty"
  }

  /** The outcome of sanitising: the accepted properties or the error, and the caller's
      object as it is left afterwards (the deletions happen in place, before the checks). */
  datatype Sanitized = Sanitized(result: Result<seq<Entry>, Error>, callerObject: MetaArg)

  /** The metadata handling of `acquireLock`: the `typeof` check, the in-place deletion of
      reserved keys, then the key and value checks in key order. An own `hasOwnProperty`
      property makes the deletion loop throw a TypeError and leaves the object as it was. */
  function Sanitize(metadata: MetaArg): (s: Sanitized)
    ensures metadata.MetaNotObject? <==> s.result == Failure(MetadataShouldBeAnObject)
    ensures metadata.MetaNull? ==> s.result == Failure(TypeError)
    ensures metadata.MetaUndefined? ==> s.result == Success([])
    ensures s.result.Success? ==> forall e :: e in s.result.value ==> e.0 !in ReservedKeys && EntryFault(e).None?
    ensures s.result.Success? && metadata.MetaObject? ==>
      forall e :: e in s.result.value <==> e in metadata.entries && e.0 !in ReservedKeys
    ensures metadata.MetaObject? && ShadowsHasOwnProperty(metadata.entries) ==>
      s == Sanitized(Failure(TypeError), metadata)
    ensures metadata.MetaObject? ==>
      (s.result.Success? <==>
         && !ShadowsHasOwnProperty(metadata.entries)
         && forall e :: e in metadata.entries && e.0 !in ReservedKeys ==> EntryFault(e).None?)
    ensures metadata.MetaObject? && !ShadowsHasOwnProperty(metadata.entries) && s.result.Failure? ==>
      exists e :: e in metadata.entries && e.0 !in ReservedKeys && EntryFault(e) == Some(s.result.error)
    ensures metadata.MetaObject? && !ShadowsHasOwnProperty(metadata.entries) && s.result.Failure? ==>
      var kept := StripReserved(metadata.entries);
      FirstFault(kept) < |kept| && s.result.error == EntryFault(kept[FirstFault(kept)]).value
    ensures metadata.MetaObject? && !ShadowsHasOwnProperty(metadata.entries) ==>
      s.callerObject.MetaObject? && forall e :: e in s.callerObject.entries <==> e in metadata.entries && e.0 !in ReservedKeys
    ensures !metadata.MetaObject? ==> s.callerObject == metadata
  {
    match metadata
    case MetaNotObject => Sanitized(Failure(MetadataShouldBeAnObject), metadata)
    case MetaNull => Sanitized(Failure(TypeError), metadata)
    case MetaUndefined => Sanitized(Success([]), metadata)
    case MetaObject(entries) =>
      if ShadowsHasOwnProperty(entries) then Sanitized(Failure(TypeError), metadata)
      else
        CheckedObject(entries);
        AcceptedObject(entries);
        Sanitized(CheckProperties(StripReserved(entries)), MetaObject(StripReserved(entries)))
  }

  /** What the checks conclude about the object's own properties. */
  lemma CheckedObject(entries: seq<Entry>)
    ensures var checked := CheckProperties(StripReserved(entries));
      && (checked.Success? <==> forall e :: e in entries && e.0 !in ReservedKeys ==> EntryFault(e).None?)
      && (checked.Failure? ==>
            exists e :: e in entries && e.0 !in ReservedKeys && EntryFault(e) == Some(checked.error))
  {
    var kept := StripReserved(entries);
    var checked := CheckProperties(kept);
    if checked.Failure? {
      assert kept[FirstFault(kept)] in kept;
    }
  }

  /** What the accepted properties and the caller's object hold after the deletions. */
  lemma AcceptedObject(entries: seq<Entry>)
    ensures var kept := StripReserved(entries);
      var checked := CheckProperties(kept);
      && (checked.Success? ==> forall e :: e in checked.value ==> e.0 !in ReservedKeys && EntryFault(e).None?)
      && (checked.Success? ==> forall e :: e in checked.value <==> e in entries && e.0 !in ReservedKeys)
      && (forall e :: e in kept <==> e in entries && e.0 !in ReservedKeys)
  {
  }

  /** An own `hasOwnProperty` property, whatever its value and wherever it stands among the
      others, is refused with a TypeError and nothing is deleted. */
  lemma HasOwnPropertyKeyThrows(before: seq<Entry>, v: MetaValue, after: seq<Entry>)
    ensures var metadata := MetaObject(before + [("hasOwnProperty", v)] + after);
      Sanitize(metadata) == Sanitized(Failure(TypeError), metadata)
  {
    var entries := before + [("hasOwnProperty", v)] + after;
    assert entries[|before|].0 == "hasOwnProperty";
  }

  /** Sanitising an object twice gives the same result the second time: the deletions of the
      first call leave nothing for the second to delete. */
  lemma SanitizeTwice(metadata: MetaArg)
    ensures Sanitize(Sanitize(metadata).callerObject).result == Sanitize(metadata).result
    ensures Sanitize(Sanitize(metadata).callerObject).callerObject == Sanitize(metadata).callerObject
  {
    if metadata.MetaObject? && !ShadowsHasOwnProperty(metadata.entries) {
      var kept := StripReserved(metadata.entries);
      assert Sanitize(metadata).callerObject == MetaObject(kept);
      assert !ShadowsHasOwnProperty(kept) by {
        forall i | 0 <= i < |kept|
          ensures kept[i].0 != "hasOwnProperty"
        {
          assert kept[i] in kept;
        }
      }
      StripNothingReserved(kept);
    }
  }

  /** An object with no reserved key is left as it is. */
  lemma {:induction false} StripNothingReserved(entries: seq<Entry>)
    requires forall e :: e in entries ==> e.0 !in ReservedKeys
    ensures StripReserved(entries) == entries
  {
    if |entries| > 0 {
      assert entries[0] in entries;
      StripNothingReserved(entries[1..]);
      assert [entries[0]] + entries[1..] == entries;
    }
  }
}

=== FILE: retry.dfy ===
/** The acquisition loop of `ifLockElse`: up to `maxTrials` calls of `acquireLock`, with a
    back-off pause after every failed trial but the last. */
module Retry {
  import opened Wrappers
  import opened Errors
  import opened LockName
  import opened Identity
  import opened Lease
  import opened Metadata
  import opened Store
  import opened Locker

  /** The back-off options, in milliseconds: the base interval, the linear increment per
      trial, and the multiplier of the exponent. */
  datatype Backoff = Backoff(retryIntervalInMs: real, linearIncrementInMs: real, exponentMultiplier: real)

  /** The defaults: a one-second pause, no growth. */
  const DefaultBackoff: Backoff := Backoff(1000.0, 0.0, 0.0)

  /** `Math.max(0, Math.min(700, x))`. */
  function ClampExponent(x: real): (r: real)
    ensures 0.0 <= r <= 700.0
    ensures 0.0 <= x <= 700.0 ==> r == x
    ensures x < 0.0 ==> r == 0.0
    ensures x > 700.0 ==> r == 700.0
  {
    var capped := if x < 700.0 then x else 700.0;
    if capped > 0.0 then capped else 0.0
  }

  /** The pause after failed trial `trial` (counted from 1):
      floor(retryIntervalInMs * exp(clamped exponent) + (trial - 1) * linearIncrementInMs),
      where the exponent is (trial - 1) * exponentMultiplier and `exp` stands for `Math.exp`. */
  function RetryDelay(b: Backoff, exp: real -> real, trial: nat): (delay: int)
    requires trial >= 1
    ensures trial == 1 ==> delay == (b.retryIntervalInMs * exp(0.0)).Floor
  {
    var exponent := ClampExponent((trial - 1) as real * b.exponentMultiplier);
    (b.retryIntervalInMs * exp(exponent) + (trial - 1) as real * b.linearIncrementInMs).Floor
  }

  /** Only `exp` on [0, 700] matters: two stand-ins that agree there give the same pauses. */
  lemma DelayReadsExpOnlyOnClampedRange(b: Backoff, exp1: real -> real, exp2: real -> real, trial: nat)
    requires trial >= 1
    requires forall x :: 0.0 <= x <= 700.0 ==> exp1(x) == exp2(x)
    ensures RetryDelay(b, exp1, trial) == RetryDelay(b, exp2, trial)
  {
  }

  /** With no exponential growth the pauses grow linearly from the base interval. */
  lemma LinearSchedule(b: Backoff, exp: real -> real, trial: nat)
    requires trial >= 1
    requires b.exponentMultiplier == 0.0 && exp(0.0) == 1.0
    ensures RetryDelay(b, exp, trial) == (b.retryIntervalInMs + (trial - 1) as real * b.linearIncrementInMs).Floor
  {
  }

  /** The pauses recorded so far follow the back-off formula, the i-th after trial i + 1. */
  ghost predicate Schedule(b: Backoff, exp: real -> real, sleeps: seq<int>) {
    forall i :: 0 <= i < |sleeps| ==> sleeps[i] == RetryDelay(b, exp, i + 1)
  }

  /** What every trial passes to `acquireLock`, besides the metadata object. */
  datatype Attempt = Attempt(name: NameArg, invocation: Option<Context>, expiry: ExpiryArg)

  /** The world around the loop: the environment of the store call of trial n, the
      collection as the next trial finds it after the pause that follows trial n (other
      callers and the TTL sweep act meanwhile), and the stand-in for `Math.exp`. */
  datatype Trials = Trials(call: nat -> CallEnv, afterSleep: (nat, Collection) -> Collection, exp: real -> real)

  /** Where the loop stops: the collection, the error of the last trial if none succeeded,
      the number of trials made, the pauses taken, and the caller's metadata object. */
  datatype RetryRun = RetryRun(store: Collection, failure: Option<Error>, trials: nat, sleeps: seq<int>, metadata: MetaArg)

  /** The loop from trial `done + 1` on, after `done` failed trials. A failed trial other
      than the last is followed by a pause, whatever the error was; the last one's error is
      thrown on. */
  function RetryFrom(cfg: LockerConfig, world: Trials, a: Attempt, b: Backoff, maxTrials: int,
                     done: nat, c: Collection, metadata: MetaArg, sleeps: seq<int>): (run: RetryRun)
    requires done < maxTrials
    requires |sleeps| == done && Schedule(b, world.exp, sleeps)
    ensures done < run.trials <= maxTrials
    ensures |run.sleeps| == run.trials - 1 && Schedule(b, world.exp, run.sleeps)
    ensures run.failure.Some? ==> run.trials == maxTrials
    ensures run.failure.None? ==>
      && ToLockName(a.name).Success? && GetLockerId(cfg.project, a.invocation).Success?
      && HeldBy(run.store, ToLockName(a.name).value, GetLockerId(cfg.project, a.invocation).value)
    decreases maxTrials - done
  {
    var trial := done + 1;
    var call := Acquire(cfg, c, a.name, a.invocation, metadata, a.expiry, world.call(trial));
    if call.result.Success? then
      RetryRun(call.store, None, trial, sleeps, call.callerMetadata)
    else if trial < maxTrials then
      RetryFrom(cfg, world, a, b, maxTrials, trial, world.afterSleep(trial, c), call.callerMetadata,
                sleeps + [RetryDelay(b, world.exp, trial)])
    else
      RetryRun(c, Some(call.result.error), trial, sleeps, call.callerMetadata)
  }

  /** The loop as the locker runs it, counting trials in `mostRecentTrial`. */
  method RetryLoop(cfg: LockerConfig, world: Trials, a: Attempt, b: Backoff, maxTrials: int,
                   c: Collection, metadata: MetaArg) returns (run: RetryRun)
    requires maxTrials >= 1
    ensures run == RetryFrom(cfg, world, a, b, maxTrials, 0, c, metadata, [])
    ensures 1 <= run.trials <= maxTrials
  {
    var mostRecentTrial: nat := 0;
    var store, callerMetadata, sleeps := c, metadata, [];
    while true
      invariant mostRecentTrial < maxTrials
      invariant |sleeps| == mostRecentTrial && Schedule(b, world.exp, sleeps)
      invariant RetryFrom(cfg, world, a, b, maxTrials, mostRecentTrial, store, callerMetadata, sleeps)
                == RetryFrom(cfg, world, a, b, maxTrials, 0, c, metadata, [])
      decreases maxTrials - mostRecentTrial
    {
      mostRecentTrial := mostRecentTrial + 1;
      var callerMetadata0 := callerMetadata;
      var call := Acquire(cfg, store, a.name, a.invocation, callerMetadata, a.expiry, world.call(mostRecentTrial));
      RetryStops(cfg, world, a, b, maxTrials, mostRecentTrial - 1, store, callerMetadata, sleeps);
      callerMetadata := call.callerMetadata;
      if call.result.Success? {
        return RetryRun(call.store, None, mostRecentTrial, sleeps, callerMetadata);
      }
      if mostRecentTrial < maxTrials {
        RetryStep(cfg, world, a, b, maxTrials, mostRecentTrial - 1, store, callerMetadata0, sleeps, call);
        sleeps := sleeps + [RetryDelay(b, world.exp, mostRecentTrial)];
        store := world.afterSleep(mostRecentTrial, store);
      } else {
        return RetryRun(store, Some(call.result.error), mostRecentTrial, sleeps, callerMetadata);
      }
    }
  }

  /** Where the loop stops at trial `done + 1`: a successful trial ends the run holding the
      lock, and a failed last trial ends it with that trial's error. */
  lemma RetryStops(cfg: LockerConfig, world: Trials, a: Attempt, b: Backoff, maxTrials: int,
                   done: nat, c: Collection, metadata: MetaArg, sleeps: seq<int>)
    requires done < maxTrials
    requires |sleeps| == done && Schedule(b, world.exp, sleeps)
    ensures var call := Acquire(cfg, c, a.name, a.invocation, metadata, a.expiry, world.call(done + 1));
      && (call.result.Success? ==>
            RetryFrom(cfg, world, a, b, maxTrials, done, c, metadata, sleeps)
            == RetryRun(call.store, None, done + 1, sleeps, call.callerMetadata))
      && (call.result.Failure? && done + 1 == maxTrials ==>
            RetryFrom(cfg, world, a, b, maxTrials, done, c, metadata, sleeps)
            == RetryRun(c, Some(call.result.error), done + 1, sleeps, call.callerMetadata))
  {
  }

  /** One failed trial that is not the last: the loop pauses, and the rest of the run is the
      loop from the next trial on, with the metadata object that trial left behind. */
  lemma RetryStep(cfg: LockerConfig, world: Trials, a: Attempt, b: Backoff, maxTrials: int,
                  done: nat, c: Collection, metadata: MetaArg, sleeps: seq<int>, call: AcquireCall)
    requires done + 1 < maxTrials
    requires |sleeps| == done && Schedule(b, world.exp, sleeps)
    requires call.result.Failure?
    ensures Schedule(b, world.exp, sleeps + [RetryDelay(b, world.exp, done + 1)])
    ensures call == Acquire(cfg, c, a.name, a.invocation, metadata, a.expiry, world.call(done + 1)) ==>
      RetryFrom(cfg, world, a, b, maxTrials, done, c, metadata, sleeps)
      == RetryFrom(cfg, world, a, b, maxTrials, done + 1, world.afterSleep(done + 1, c), call.callerMetadata,
                   sleeps + [RetryDelay(b, world.exp, done + 1)])
  {
    var next := sleeps + [RetryDelay(b, world.exp, done + 1)];
    forall i | 0 <= i < |next|
      ensures next[i] == RetryDelay(b, world.exp, i + 1)
    {
      if i < |sleeps| {
        assert next[i] == sleeps[i];
      }
    }
  }

  /** Against a lock that another locker id holds throughout, every trial fails: the loop
      makes all `maxTrials` trials and pauses between each pair. */
  lemma {:induction false} RetryAgainstHeldLock(cfg: LockerConfig, world: Trials, a: Attempt, b: Backoff, maxTrials: int,
                                                done: nat, c: Collection, metadata: MetaArg, sleeps: seq<int>, holder: string)
    requires done < maxTrials
    requires |sleeps| == done && Schedule(b, world.exp, sleeps)
    requires ToLockName(a.name).Success?
    requires !(GetLockerId(cfg.project, a.invocation).Success? && GetLockerId(cfg.project, a.invocation).value == holder)
    requires HeldBy(c, ToLockName(a.name).value, holder)
    requires forall n, s :: HeldBy(s, ToLockName(a.name).value, holder) ==>
               HeldBy(world.afterSleep(n, s), ToLockName(a.name).value, holder)
    ensures var run := RetryFrom(cfg, world, a, b, maxTrials, done, c, metadata, sleeps);
      run.failure.Some? && run.trials == maxTrials && |run.sleeps| == maxTrials - 1
      && HeldBy(run.store, ToLockName(a.name).value, holder)
    decreases maxTrials - done
  {
    var trial := done + 1;
    var call := Acquire(cfg, c, a.name, a.invocation, metadata, a.expiry, world.call(trial));
    assert call.result.Failure?;
    if trial < maxTrials {
      RetryAgainstHeldLock(cfg, world, a, b, maxTrials, trial, world.afterSleep(trial, c), call.callerMetadata,
                           sleeps + [RetryDelay(b, world.exp, trial)], holder);
    }
  }

  /** A request that can never succeed (bad name, no locker id, or bad metadata) is still
      retried until the trials run out: the loop does not tell a conflict from other errors.
      The metadata stays bad because the first trial's deletions leave the same verdict. */
  lemma {:induction false} RetryOnAnyError(cfg: LockerConfig, world: Trials, a: Attempt, b: Backoff, maxTrials: int,
                                           done: nat, c: Collection, metadata: MetaArg, sleeps: seq<int>)
    requires done < maxTrials
    requires |sleeps| == done && Schedule(b, world.exp, sleeps)
    requires !ValidRequest(cfg, a.name, a.invocation, metadata)
    ensures var run := RetryFrom(cfg, world, a, b, maxTrials, done, c, metadata, sleeps);
      run.failure.Some? && run.trials == maxTrials && |run.sleeps| == maxTrials - 1
    decreases maxTrials - done
  {
    var trial := done + 1;
    var call := Acquire(cfg, c, a.name, a.invocation, metadata, a.expiry, world.call(trial));
    assert call.result.Failure?;
    if trial < maxTrials {
      if ToLockName(a.name).Success? && GetLockerId(cfg.project, a.invocation).Success? {
        SanitizeTwice(metadata);
        assert call.callerMetadata == Sanitize(metadata).callerObject;
      } else {
        assert call.callerMetadata == metadata;
      }
      assert !ValidRequest(cfg, a.name, a.invocation, call.callerMetadata);
      RetryOnAnyError(cfg, world, a, b, maxTrials, trial, world.afterSleep(trial, c), call.callerMetadata,
                      sleeps + [RetryDelay(b, world.exp, trial)]);
    }
  }

  /** A free lock and a well-formed request with a fault-free first store call: the first
      trial takes the lock and no pause is taken. */
  lemma FirstTrialTakesFreeLock(cfg: LockerConfig, world: Trials, a: Attempt, b: Backoff, maxTrials: int,
                                c: Collection, metadata: MetaArg)
    requires maxTrials >= 1
    requires ValidRequest(cfg, a.name, a.invocation, metadata)
    requires ToLockName(a.name).value !in c
    requires world.call(1).fault.None?
    ensures var run := RetryFrom(cfg, world, a, b, maxTrials, 0, c, metadata, []);
      run.failure.None? && run.trials == 1 && run.sleeps == []
  {
  }
}

=== FILE: store.dfy ===
/** The lock collection: one record per lock name (the unique index on `lockName`), an
    upsert that refuses a second record under the same name, filtered removal, and the
    fixed-window TTL sweep on `expiryMarker`. */
module Store {
  import opened Wrappers
  import opened Errors
  import opened Lease

  /** A stored field value: a string, null, a date in milliseconds, or any other value. */
  datatype Field = FString(s: string) | FNull | FDate(ms: int) | FOther

  /** A lock record. The record's `lockName` is its key in the collection; `id` is its
      `_id`; `fields` holds every field set through `$set`. */
  datatype LockRecord = LockRecord(id: string, lockerId: string, fields: map<string, Field>)

  /** The collection, keyed by lock name. */
  type Collection = map<string, LockRecord>

  /** Fields an update may not set: they identify the record. */
  const IdentityFields: set<string> := {"_id", "lockName", "lockerId"}

  /** A nullable string as stored: null when absent. */
  function OptionalField(o: Option<string>): (f: Field)
    ensures f.FNull? <==> o.None?
    ensures o.Some? ==> f == FString(o.value)
  {
    match o
    case Some(s) => FString(s)
    case None => FNull
  }

  /** The query `{key: v}`: matches an equal field, and a null query also matches a missing field. */
  predicate FieldIs(r: LockRecord, key: string, v: Field) {
    if v.FNull? then key !in r.fields || r.fields[key].FNull?
    else key in r.fields && r.fields[key] == v
  }

  /** `lockName` is held, and by `lockerId`. */
  predicate HeldBy(c: Collection, lockName: string, lockerId: string) {
    lockName in c && c[lockName].lockerId == lockerId
  }

  /** Every record other than the one under `lockName` is as it was. */
  ghost predicate OthersUnchanged(c: Collection, c': Collection, lockName: string) {
    forall k :: k != lockName ==> (k in c <==> k in c') && (k in c ==> c'[k] == c[k])
  }

  /** `upsert({lockName, lockerId}, {$set: update})` under the unique index on `lockName`:
      the record for `lockName` held by `lockerId` has `update` merged into its fields;
      with no record for `lockName` a new one is inserted under `freshId`; a record held by
      anyone else makes the insert hit the index. `fault` is a driver failure. */
  function Upsert(c: Collection, lockName: string, lockerId: string, update: map<string, Field>,
                  freshId: string, fault: Option<StoreError>): (r: Result<Collection, StoreError>)
    requires update.Keys !! IdentityFields
    ensures fault.Some? ==> r == Failure(fault.value)
    ensures fault.None? ==> (r.Failure? <==> lockName in c && c[lockName].lockerId != lockerId)
    ensures fault.None? && r.Failure? ==> r.error == DuplicateKey
    ensures r.Success? ==> HeldBy(r.value, lockName, lockerId) && OthersUnchanged(c, r.value, lockName)
    ensures r.Success? ==> forall k :: k in update ==> k in r.value[lockName].fields && r.value[lockName].fields[k] == update[k]
    ensures r.Success? && lockName in c ==>
      && r.value[lockName].id == c[lockName].id
      && forall k :: k in c[lockName].fields && k !in update ==> k in r.value[lockName].fields && r.value[lockName].fields[k] == c[lockName].fields[k]
    ensures r.Success? && lockName in c ==> r.value[lockName].fields.Keys == c[lockName].fields.Keys + update.Keys
    ensures r.Success? && lockName !in c ==> r.value[lockName] == LockRecord(freshId, lockerId, update)
  {
    if fault.Some? then Failure(fault.value)
    else if lockName in c then
      if c[lockName].lockerId == lockerId then
        Success(c[lockName := c[lockName].(fields := c[lockName].fields + update)])
      else
        Failure(DuplicateKey)
    else
      Success(c[lockName := LockRecord(freshId, lockerId, update)])
  }

  /** What `remove(selector)` leaves and how many records it removed. */
  datatype Removal = Removal(remaining: Collection, count: nat)

  /** `remove(selector)`: deletes exactly the records the selector matches. */
  function RemoveWhere(c: Collection, matches: (string, LockRecord) -> bool): (r: Removal)
    ensures forall k :: k in r.remaining <==> k in c && !matches(k, c[k])
    ensures forall k :: k in r.remaining ==> r.remaining[k] == c[k]
    ensures r.count == |set k | k in c && matches(k, c[k])|
    ensures r.count == 0 <==> forall k :: k in c ==> !matches(k, c[k])
  {
    var removed := set k | k in c && matches(k, c[k]);
    MatchedSetEmpty(c, matches);
    Removal(map k | k in c && !matches(k, c[k]) :: c[k], |removed|)
  }

  lemma MatchedSetEmpty(c: Collection, matches: (string, LockRecord) -> bool)
    ensures (set k | k in c && matches(k, c[k])) == {} <==> forall k :: k in c ==> !matches(k, c[k])
  {
    var removed := set k | k in c && matches(k, c[k]);
    if exists k :: k in c && matches(k, c[k]) {
      var w :| w in c && matches(w, c[w]);
      assert w in removed;
    } else {
      assert forall x :: x !in removed;
    }
  }

  /** The record's marker is older than the TTL window at time `nowMs`. */
  predicate Expired(r: LockRecord, windowInSec: int, nowMs: int) {
    "expiryMarker" in r.fields && r.fields["expiryMarker"].FDate?
    && MarkerExpired(r.fields["expiryMarker"].ms, windowInSec, nowMs)
  }

  /** The background TTL monitor at time `nowMs`: every expired record is gone, nothing else. */
  function Sweep(c: Collection, windowInSec: int, nowMs: int): (c': Collection)
    ensures forall k :: k in c' <==> k in c && !Expired(c[k], windowInSec, nowMs)
    ensures forall k :: k in c' ==> c'[k] == c[k]
  {
    RemoveWhere(c, (k, r) => Expired(r, windowInSec, nowMs)).remaining
  }

  /** The collection invariants the locker keeps: every holder id is non-empty, no record
      carries an identity field among its `$set` fields, and `_id`s are distinct. */
  ghost predicate WellFormed(c: Collection) {
    && (forall k :: k in c ==> c[k].lockerId != "")
    && (forall k :: k in c ==> c[k].fields.Keys !! IdentityFields)
    && (forall k, k' :: k in c && k' in c && k != k' ==> c[k].id != c[k'].id)
  }

  /** The `_id`s in use. */
  function Ids(c: Collection): set<string> {
    set k | k in c :: c[k].id
  }

  /** Removing records keeps the invariants. */
  lemma RemovePreservesWellFormed(c: Collection, matches: (string, LockRecord) -> bool)
    requires WellFormed(c)
    ensures WellFormed(RemoveWhere(c, matches).remaining)
  {
  }

  /** With a fresh `_id` and a non-empty holder, an upsert keeps the invariants. */
  lemma UpsertPreservesWellFormed(c: Collection, lockName: string, lockerId: string, update: map<string, Field>,
                                  freshId: string, fault: Option<StoreError>)
    requires WellFormed(c)
    requires update.Keys !! IdentityFields
    requires lockerId != "" && freshId !in Ids(c)
    requires Upsert(c, lockName, lockerId, update, freshId, fault).Success?
    ensures WellFormed(Upsert(c, lockName, lockerId, update, freshId, fault).value)
  {
    var c' := Upsert(c, lockName, lockerId, update, freshId, fault).value;
    forall k, k' | k in c' && k' in c' && k != k'
      ensures c'[k].id != c'[k'].id
    {
      if lockName !in c {
        if k == lockName {
          assert c[k'].id in Ids(c);
        } else if k' == lockName {
          assert c[k].id in Ids(c);
        }
      }
    }
  }
}

=== FILE: wrappers.dfy ===
/** Option and Result, the two failure-carrying shapes used throughout the model. */
module Wrappers {

  /** A JavaScript value that may be `null`: `None` stands for `null`. */
  datatype Option<+T> = None | Some(value: T)

  /** The outcome of an operation that either returns a value or throws. */
  datatype Result<+T, +E> = Success(value: T) | Failure(error: E)
}
